=== FILE: README.md ===
# PollsAPI store model

PollsAPI is a small Django REST service for surveys. Administrators create
polls (name, description, start and end date, an active flag) and questions
(text, and a type: text, single choice or multiple choice). Anonymous users,
told apart only by their session key, answer questions. Each answer kind has
its own endpoint and table. Multiple-choice answers link to rows of one
global table of option values. Two listings are served: the active polls,
and "my polls", which holds the polls the caller has answered, each question
carrying the caller's answer. Editing a question can also delete every
answer to it (`reset_answers`).

This project models that behaviour as a sequential state machine over one
immutable `Store`:

- `models.dfy` (module `Models`) holds the data model.
  - The seven tables are maps from ids to rows, and ids come from one counter.
  - The store invariants are defined here:
    - every id comes from the counter;
    - every foreign key points at an existing row;
    - at most one answer, of any kind, per (question, user);
    - option values are unique and in the column's range;
    - no two users share a session key;
    - every answer's kind matches its question's type.
  - Cascading deletes are defined here.
- `serializers.dfy` (module `Serializers`) holds the answer guards: "already answered", answer type, duplicate options and end date. For each answer kind it holds validate, create and representation. It also holds the merge that flattens a question's three answer lists into one answer.
- `views.dfy` (module `Views`) holds the request handlers.
  - Answer submission: get-or-create the anonymous user, validate, create, then represent.
  - Poll create and update, question create, and question update with and without reset.
  - The two listings.
- `properties.dfy` (module `Properties`) relates several operations.
  - Every request keeps the store valid.
  - A session can answer a question only once, whatever the answer kinds.
  - "My polls" shows the caller's own submission and nothing another session submitted.
  - Resetting a question hides it from every listing.
  - A type change without reset leaves stale answers (a concrete store shows it, see "## Findings").
  - The handler's test of the raw `reset_answers` value differs from the boolean the serializer declares (see "## Findings").

Where the code decides a point that is easy to get wrong, the model follows the code:

- **Merge precedence.** A question's merged answer takes the text answer, else the single answer, and then a multi answer overrides either. So the order is multi, then text, then single (pollsAPI/serializers.py:155-160). In a valid store each question has at most one answer per session, so the order never shows (`Properties.MyPollsShowsTheAnswer`).
- **End date.** The end-date check rejects only an end date strictly before "now". An end date equal to "now" is accepted.
- **Unknown question on answer submission.** The question field's validation reports it as a field error (`InvalidFields({QuestionField})`), not as "not found".
- **Unknown question on a reset update.** The lookup raises an unhandled error (`QuestionDoesNotExist`). Without reset it is the framework's "not found".

## Model

| member | source | states |
|---|---|---|
| Models.AnsweredByKey | pollsAPI/serializers.py:9-14 | the three per-table existence tests together hold iff some answer row of any kind has that question and user |
| Models.DropAnswersOfQuestions | pollsAPI/models.py:33-64 | exactly the answers, of all three kinds, to the given questions disappear; every other row and table stays |
| Models.DropAnswersOfUser | pollsAPI/models.py:38-65 | exactly the answers, of all three kinds, given by the user disappear; every other row and table stays |
| Models.DeleteQuestion | pollsAPI/models.py:33-64 | deleting an unknown question is "not found"; otherwise the question and exactly its answers go, the kept answer rows are unchanged, and the polls, users, option values and id counter stay |
| Models.DeletePoll | pollsAPI/models.py:26 | deleting an unknown poll is "not found"; otherwise the poll, exactly its questions and exactly their answers go, the kept question and answer rows are unchanged, and the users, option values and id counter stay |
| Models.DeleteUser | pollsAPI/models.py:38-65 | deleting an unknown user is "not found"; otherwise the user and exactly that user's answers go, the kept answer rows are unchanged, and the polls, questions, option values and id counter stay |
| Serializers.CheckNotAnswered | pollsAPI/serializers.py:7-15 | fails iff some text, single or multi answer exists for the same (question, user), and the failure is "already answered" |
| Serializers.CheckAnswerType | pollsAPI/serializers.py:18-26 | passes iff the question exists with the expected type; a failed lookup and a type mismatch (carrying both types) are told apart |
| Serializers.ValidateEndDate | pollsAPI/serializers.py:36-40 | accepts iff now <= end date and returns the value unchanged; an end date equal to now is accepted |
| Serializers.ElemsSize | pollsAPI/serializers.py:118 | a list has at most as many distinct values as entries, and exactly as many iff no value repeats |
| Serializers.HasRepeatsIffNotDistinct | pollsAPI/serializers.py:118-119 | the length-versus-set test fires exactly when two positions hold the same value |
| Serializers.ValidateText | pollsAPI/serializers.py:67-69 | passes iff the question exists and is a text question; an unknown question is a field error; a question of another type is a type mismatch naming both types |
| Serializers.ValidateSingle | pollsAPI/serializers.py:91-93 | passes iff the question exists, is single-choice and the choice is in 0..32767; field errors for question and value are reported together; with both fields valid, a question of another type is a type mismatch naming both types |
| Serializers.ValidateMulti | pollsAPI/serializers.py:116-120 | passes iff the question is multi-choice and no value repeats; the type check is reported before the duplicate check |
| Serializers.CreateText | pollsAPI/serializers.py:71-73 | refused as "already answered" iff the pair has an answer; otherwise exactly one new text row with the given question, user and text is added |
| Serializers.CreateSingle | pollsAPI/serializers.py:95-97 | refused as "already answered" iff the pair has an answer; otherwise exactly one new single row with the given question, user and choice is added |
| Serializers.UpsertVariants | pollsAPI/serializers.py:124-125 | the option values become old values ∪ submitted values; existing rows are kept unchanged, new rows get fresh ids, and uniqueness is kept |
| Serializers.CreateMulti | pollsAPI/serializers.py:122-129 | "already answered" comes first; a value outside the column is refused; otherwise one new multi row is linked to exactly the option rows whose values were submitted |
| Serializers.MultiRoundTrip | pollsAPI/serializers.py:131-136 | the created multi answer represents as its id, its question and the set of submitted values |
| Serializers.TextRoundTrip | pollsAPI/serializers.py:75-81 | the created text answer represents as its id, its question and the submitted text |
| Serializers.SingleRoundTrip | pollsAPI/serializers.py:95-105 | the created single answer represents as its id, its question and the submitted choice |
| Serializers.MergeAnswers | pollsAPI/serializers.py:148-163 | the merged answer is the first multi answer if any, else the first text answer, else the first single answer, with `question` removed; some list must be non-empty |
| Serializers.MergeOfOne | pollsAPI/serializers.py:154-161 | when the three lists hold one answer between them, the merge returns that answer whatever its kind |
| Views.GetOrCreateUser | pollsAPI/views.py:75 | fails iff the key is recorded more than once; an existing user is returned with the store untouched; otherwise one user with that key is added; afterwards the key names exactly the returned user |
| Views.SessionUsersAtMostOne | pollsAPI/views.py:86 | with unique session keys, a key names at most one user |
| Views.GetOrCreateReusesUser | pollsAPI/views.py:97 | a second get-or-create with the same key returns the same user and adds no one |
| Views.SubmitText | pollsAPI/views.py:74-76 | failed validation changes nothing and returns the validation error, so it is reported before "already answered"; any refusal leaves the answers alone; success adds exactly one text answer by the caller's user and returns its representation |
| Views.SubmitSingle | pollsAPI/views.py:85-87 | failed validation changes nothing and returns the validation error, so it is reported before "already answered"; any refusal leaves the answers alone; success adds exactly one single answer by the caller's user and returns its representation |
| Views.SubmitMulti | pollsAPI/views.py:96-98 | failed validation changes nothing and returns the validation error, so it is reported before "already answered"; success adds one multi answer by the caller's user, option values become old ∪ submitted, and the representation carries the submitted set |
| Views.MultiCreated | pollsAPI/serializers.py:122-129 | after get-or-create and create, the store gained exactly the caller's multi answer linked to the submitted values |
| Views.CreatedAnswerAdded | pollsAPI/serializers.py:72-73 | a row created for the resolved user on a pair that user had not answered is exactly one new answer by the caller's session |
| Views.CreatePoll | pollsAPI/models.py:10-16 | refused iff the end date is before now; otherwise exactly one poll is added under a fresh id, starting now, with the given name, description and end date, and active exactly when the flag is given as true; questions, users, answers and option values stay |
| Views.UpdatePoll | pollsAPI/models.py:10-16 | succeeds iff the poll exists and any new end date is not before now (an unknown poll is "not found", a past end date is refused); on success the store differs only in that poll, whose given fields take their new values, whose absent ones keep their old values, and whose start date never changes |
| Views.CreateQuestion | pollsAPI/models.py:19-28 | refused iff the poll does not exist; otherwise exactly one question is added under a fresh id, and polls, users, answers and option values stay |
| Views.ApplyQuestionEdit | pollsAPI/views.py:64 | succeeds iff the question exists and any new poll exists (an unknown question is "not found", an unknown poll is a field error); on success only that question changes, each given field among poll, text and type takes its new value and each absent one keeps its old value |
| Views.UpdateQuestion | pollsAPI/views.py:57-65 | without reset the answers are unchanged; with reset exactly the question's answers go, before and regardless of the field update; an unknown question is an unhandled lookup error with reset and "not found" without; an unknown new poll is a field error; the update succeeds iff the question and any new poll exist, and then the question's given fields take their new values and the others keep theirs |
| Views.Truthy | pollsAPI/views.py:59 | a bare `if` on the raw value is false exactly for JSON false, 0, the empty text and null, among the kinds of value the model represents |
| Views.ParseBoolean | pollsAPI/serializers.py:53 | JSON booleans read as themselves, 0 and 1 as false and true, the framework's text spellings of true and false as such, and anything else (null included) is rejected; where a value is read it agrees with truthiness except on text |
| Views.UpdateQuestionAsWritten | pollsAPI/views.py:59-64 | the raw flag's truthiness decides the reset: a truthy value deletes exactly the question's answers, a falsy one leaves all answers; an unknown question is refused with the store unchanged; a flag the boolean field reads is the boolean update with the truthiness as reset; a flag it cannot read is refused with the question unchanged, as a field error together with any poll error when the question exists, after any deletion, and then polls, users, option values, the id counter and the kept answer rows stay |
| Views.UpdateQuestionKeepingKinds | pollsAPI/views.py:57-65 | a question update that also resets the answers when the type changes keeps every answer's kind equal to its question's type; without a type change it is the handler's update, and with one it is the handler's update with reset, so no answer to the question is left |
| Views.UpdateQuestionChecked | pollsAPI/views.py:57-65 | a flag the boolean field rejects changes nothing and is a field error; a flag it reads is the boolean update with the value read as reset, so false keeps every answer and true deletes exactly the question's answers; on JSON booleans it is the handler's update |
| Views.ActivePolls | pollsAPI/views.py:104 | a poll is listed iff its active flag is set, with its stored fields |
| Views.CallerAnswers | pollsAPI/views.py:113-115 | the list holds only representations of the caller's answers to the question of that kind, and every such answer |
| Views.AnsweredBySessionByKey | pollsAPI/views.py:116-120 | the question filter holds iff the caller has an answer of any kind to the question |
| Views.CallerAnswerListed | pollsAPI/views.py:121-125 | every answer the caller gave to a question is in that question's list of its kind |
| Views.QuestionViewOf | pollsAPI/serializers.py:139-163 | a listed question carries its id, text and type, and as answer one of the caller's own answers to it |
| Views.PickedIsCallerAnswer | pollsAPI/serializers.py:154-161 | the merge of the caller's three lists is one of the caller's answers to that question |
| Views.MyPolls | pollsAPI/views.py:111-133 | exactly the polls with a question the caller answered, each once with its stored fields, holding exactly the questions the caller answered, each once with its stored text and type and one of the caller's answers |
| Views.MyPollsPolls | pollsAPI/views.py:126-130 | the listing holds exactly the polls with a question the caller answered, each once, with its stored fields |
| Views.MyPollsQuestions | pollsAPI/views.py:131 | each poll's questions are exactly its questions the caller answered, each once with its stored text and type, carrying a caller's answer |
| Properties.Run | pollsAPI/models.py:5-66 | every store reachable from the empty database by any sequence of requests to the handlers as written, plus the schema's cascade on deleting an anonymous user, satisfies `Valid`: every invariant listed above except the kind match, which a type change without reset breaks |
| Properties.StepKeepsValid | pollsAPI/models.py:5-66 | every request to the handlers as written, successful or refused, keeps a valid store valid |
| Properties.FrameKeepsSessions | pollsAPI/views.py:75 | a submission adds a user only for an unrecorded key, so session keys stay unique |
| Properties.UserOnlyKeepsValid | pollsAPI/views.py:75 | a refused submission that only recorded a new user keeps the store valid and the kinds matching |
| Properties.AddedAnswerKeepsValid | pollsAPI/serializers.py:7-15 | adding one answer for a pair without one keeps at most one answer per (question, user) |
| Properties.AddedKeepsOnePerPair | pollsAPI/serializers.py:7-15 | an answer added for a (question, user) pair without one leaves every pair with at most one answer |
| Properties.SubmitTextKeepsValid | pollsAPI/serializers.py:71-73 | a text submission keeps the store valid and the kinds matching |
| Properties.SubmitSingleKeepsValid | pollsAPI/serializers.py:95-97 | a single submission keeps the store valid, the choice in range and the kinds matching |
| Properties.SubmitMultiKeepsValid | pollsAPI/serializers.py:122-129 | a multi submission keeps the store valid, the option values unique and the kinds matching |
| Properties.SubmitKeepsValid | pollsAPI/views.py:68-98 | any of the three answer endpoints keeps the store valid |
| Properties.ShrunkAnswersKeepValid | pollsAPI/models.py:26-65 | removing answer rows and rows nothing refers to keeps the store valid |
| Properties.DeleteQuestionKeepsValid | pollsAPI/models.py:33-37 | deleting a question keeps the store valid and the kinds matching |
| Properties.DeletePollKeepsValid | pollsAPI/models.py:26 | deleting a poll keeps the store valid and the kinds matching |
| Properties.DeleteUserKeepsValid | pollsAPI/models.py:38 | deleting a user keeps the store valid and the kinds matching |
| Properties.UpdateQuestionKeepsValid | pollsAPI/views.py:57-65 | a question update, with or without reset, keeps the store valid |
| Properties.UpdateQuestionKeepsKinds | pollsAPI/views.py:59-64 | answers' kinds still match after an update that resets the answers or keeps the type |
| Properties.UpdateQuestionAsWrittenKeepsValid | pollsAPI/views.py:57-65 | the handler as written keeps the store valid, including when it refuses an unreadable flag after deleting the answers |
| Properties.UpdateQuestionCheckedKeepsValid | pollsAPI/views.py:57-65 | the corrected handler keeps the store valid |
| Properties.CreatePollKeepsValid | pollsAPI/models.py:10-16 | creating a poll keeps the store valid |
| Properties.UpdatePollKeepsValid | pollsAPI/models.py:12-16 | updating a poll keeps the store valid |
| Properties.CreateQuestionKeepsValid | pollsAPI/models.py:19-28 | creating a question keeps the store valid |
| Properties.ResolvedUserAnswered | pollsAPI/views.py:86 | the user get-or-create resolves has answered a question iff the caller's session has |
| Properties.SubmitTextRefusedIffAnswered | pollsAPI/serializers.py:67-73 | a valid text submission is refused iff the session already answered the question in any kind, and then as "already answered" |
| Properties.SubmitSingleRefusedIffAnswered | pollsAPI/serializers.py:91-97 | a valid single submission is refused iff the session already answered the question in any kind, and then as "already answered" |
| Properties.SubmitMultiRefusedIffAnswered | pollsAPI/serializers.py:116-129 | a valid multi submission is "already answered" when the session answered; otherwise it succeeds iff every value is in the column's range |
| Properties.AnsweredSessionRefused | pollsAPI/serializers.py:10-15 | once a session answered a question, every further submission to it is refused, whatever its kind |
| Properties.TypeMismatchReportedFirst | pollsAPI/serializers.py:67-73 | a submission to a question of another type is refused as a type mismatch with the store unchanged, whether or not the session already answered it |
| Properties.SubmitAdded | pollsAPI/views.py:74-98 | a successful submission added exactly the caller's answer row it represents |
| Properties.SecondSubmissionRefused | pollsAPI/serializers.py:72 | after one successful answer, a second by the same session to the same question is refused, whatever both kinds are |
| Properties.OtherSessionStillUnanswered | pollsAPI/views.py:75 | a submission by one session gives no other session an answer to the question |
| Properties.MyPollsShowsTheAnswer | pollsAPI/serializers.py:148-163 | in a valid store a listed question carries the caller's answer to it, whatever the merge's precedence |
| Properties.MyPollsShowsSubmission | pollsAPI/views.py:111-133 | after a successful submission the caller's listing holds the poll and the question, carrying the submitted answer |
| Properties.CallerAnswerShown | pollsAPI/views.py:113-131 | in a valid store every answer of the caller appears in the listing under its poll and question, as the merged answer |
| Properties.OtherSessionUnaffected | pollsAPI/views.py:113-120 | another session's submission does not make a question appear in this session's listing |
| Properties.UpdateQuestionKeepsIds | pollsAPI/views.py:57-65 | a question update keeps every id drawn from the counter |
| Properties.ResetHidesQuestion | pollsAPI/views.py:59-63 | after a reset the question is in no session's listing |
| Properties.ResetIgnoresEdit | pollsAPI/views.py:59-64 | the answers left by a reset update do not depend on the requested field changes |
| Properties.ResetSurvivesRejectedEdit | pollsAPI/views.py:59-64 | when the field update is rejected, the reset's deletion stays while the question is unchanged |
| Properties.FormFalseDeletesAnswers | pollsAPI/views.py:59 | on a concrete store the text "false", which the boolean field reads as false, still deletes the question's answer as written, and keeps it when checked |
| Properties.FalseSpellingsDiverge | pollsAPI/views.py:59-63 | for every text spelling of false the checked update keeps all answers while the update as written deletes every answer to the question |
| Properties.UnreadableFlagRefusedAfterDeletion | pollsAPI/views.py:59-64 | on a concrete store a flag the boolean field cannot read ("maybe") is refused as a field error with the question text unchanged, yet the question's answer is gone; a null flag is refused and changes nothing |
| Properties.CheckedAgreesOnBooleans | pollsAPI/views.py:59 | on a JSON boolean flag the checked update and the update as written are the same |
| Properties.TypeChangeWithoutResetLeavesStaleAnswer | pollsAPI/views.py:57-65 | a type change without reset succeeds on a consistent store and leaves an answer of the old kind |
| Properties.NewPollNotActive | pollsAPI/models.py:14-16 | a poll created without the flag starts now and is not in the active listing |
| Properties.DeactivatedPollLeavesActiveList | pollsAPI/views.py:104 | switching a poll off removes exactly that poll from the active listing |

## Left out

- HTTP routing, API docs, admin wiring, authentication and permission classes: these are framework glue with no store logic.
- Superuser and migration bootstrap: this is I/O against the framework.
- Session creation in `get_anonymous_user_id`: the session key enters every handler as an opaque string parameter.
- `timezone.now()`: "now" is an integer parameter. Time zones are not modelled.
- Error texts: the Russian messages are error tags.
- Check-then-act races between "already answered" and the insert, and the non-transactional delete-then-update of a reset: the model is sequential.
- Length limits and blank checks on character and text fields (name 128, description and question text 1024, answer text 512, session key 39): these are framework field validation that the core does not rely on.
- The question type codes come from `config/utils.py`, which is not part of this model. The type is the three-valued `QuestionType`, so an invalid code cannot be represented.
- A request without the `reset_answers` key fails with an unhandled lookup error. The model always has a flag. The accepted true and false spellings in `ParseBoolean` follow the framework's boolean field, whose source is not part of this model.
- Multi answer values: the list field accepts any JSON values, and the model takes integers. A value the variant column cannot store fails in the database, like the out-of-range case below.
- The multi value range: the model follows a PostgreSQL backend. There `ignore_conflicts` skips only unique conflicts. A negative value breaks the column's check and a value above 32767 overflows the small-integer column, so the insert fails. That is modelled as `StorageRejected` after the "already answered" check. On SQLite, `ignore_conflicts` becomes `INSERT OR IGNORE`: a negative value's row is silently skipped and a value above 32767 is stored. That behaviour is not modelled. The database settings are not part of this model.
- Deleting an anonymous user: no route deletes one. `Properties.Step` still has a request for it, which is only the schema's cascade (pollsAPI/models.py:38-65). It widens the reachable stores, so the invariant proof covers the routed handlers as well.
- Views.Truthy: request values are booleans, integers, text and null. JSON floats, arrays and objects are not represented, so their truthiness (`0.0`, `[]` and `{}` are false) is not modelled. Each would take the path of a represented value: a falsy one that the boolean field rejects, like null, or a truthy one that the field rejects, like "maybe". Python also reads `0.0` and `1.0` as the booleans, like 0 and 1.
- Ids: one counter hands out the ids of all tables. The database's per-table sequences give the same freshness, not the same numbers.
- Session key uniqueness: the user table does not declare the key unique. `SessionsUnique` holds because get-or-create runs sequentially.
- The list and retrieve endpoints of polls and questions (pollsAPI/urls.py:11-13): they only read rows. The answer tables are routed for creation only (pollsAPI/urls.py:18-20). Full-object (PUT) updates are left out too: only the partial field updates are modelled.
- Views.SubmitMulti: the representation carries the submitted values as a set, because the order of the variant rows the ORM returns is not specified.
- Views.MyPolls: polls and questions form sets, because the listing's order is whatever the database returns, and rows duplicated by ORM joins are not modelled.
- Views.ActivePolls: the listing is a map from id to poll, because its order is the database's.

## Findings

| source | as written | input that shows it | evidently intended | confidence | as-written member | corrected member |
|---|---|---|---|---|---|---|
| pollsAPI/views.py:59 | the handler tests the raw `reset_answers` value with Python truthiness | a form-encoded update with `reset_answers=false` on a question that has answers: the text "false" is non-empty, so every answer is deleted | the flag is read as the serializer's boolean field declares it (pollsAPI/serializers.py:53): "false" keeps the answers, and an unreadable value is a validation error that deletes nothing | medium, not executed | Properties.FormFalseDeletesAnswers | Views.UpdateQuestionChecked |
| pollsAPI/views.py:57-65 | a question update may change the type without `reset_answers`, and the answers given under the old type stay | a text question with one text answer, updated to single choice without reset: the update succeeds and the text answer remains under a single-choice question, so the "my polls" merge shows a text answer for it | a type change leaves no answer of a kind the question no longer has | low, not executed | Properties.TypeChangeWithoutResetLeavesStaleAnswer | Views.UpdateQuestionKeepingKinds |

The request state machine (`Properties.Step`) runs the handlers as written, including `Views.UpdateQuestionAsWritten`. The corrected handlers keep the store valid as well (`Properties.UpdateQuestionCheckedKeepsValid`, and `Views.UpdateQuestionKeepingKinds` for the kinds).

=== FILE: models.dfy ===
/**
 * The persistence schema of the polls service: polls, questions, anonymous
 * users, the three answer tables and the shared table of option codes
 * ("variants"), held as maps from primary key to row. The declared
 * cascades become pure store transformers, and the schema's implicit
 * guarantees become the predicates `Valid` and `KindsMatch`.
 */
module Models {

  /** Primary keys. Every table draws fresh keys from one counter. */
  type Id = nat

  /** Timestamps only need to be ordered. */
  type Time = int

  /** Largest value of a positive small-integer column. */
  const MaxSmallInt: int := 32767

  predicate InSmallRange(v: int) {
    0 <= v <= MaxSmallInt
  }

  /** The three declared question types; no other value can be stored. */
  datatype QuestionType = Text | Single | Multi

  datatype Option<T> = None | Some(value: T) {
    function GetOr(default: T): T {
      match this
      case Some(v) => v
      case None => default
    }
  }

  datatype Poll = Poll(name: string, description: string, startDate: Time, endDate: Time, isActive: bool)

  datatype Question = Question(poll: Id, text: string, qtype: QuestionType)

  /** An anonymous respondent, known only by its session key. */
  datatype UserAnonymous = UserAnonymous(session: string)

  datatype AnswerText = AnswerText(question: Id, user: Id, answer: string)

  datatype AnswerSingle = AnswerSingle(question: Id, user: Id, answer: int)

  /** One row of the global, value-unique table of option codes. */
  datatype AnswerVariant = AnswerVariant(variant: int)

  /** A multiple-choice answer: `answer` holds the keys of the linked variant rows. */
  datatype AnswerMulti = AnswerMulti(question: Id, user: Id, answer: set<Id>)

  datatype Store = Store(
    polls: map<Id, Poll>,
    questions: map<Id, Question>,
    users: map<Id, UserAnonymous>,
    texts: map<Id, AnswerText>,
    singles: map<Id, AnswerSingle>,
    variants: map<Id, AnswerVariant>,
    multis: map<Id, AnswerMulti>,
    nextId: Id)

  function EmptyStore(): Store {
    Store(map[], map[], map[], map[], map[], map[], map[], 0)
  }

  /** Request fields that field-level validation can reject. */
  datatype Field = QuestionField | AnswerField | PollField | ResetAnswersField

  datatype Error =
    | InvalidFields(fields: set<Field>)   // field-level validation, all failing fields at once
    | QuestionLookupFailed                // the re-lookup inside the answer-type check failed
    | AnswerTypeMismatch(expected: QuestionType, actual: QuestionType)
    | VariantsNotUnique
    | AlreadyAnswered
    | EndDateInPast
    | StorageRejected                     // a column constraint refused the insert
    | MultipleUsersForSession             // get-or-create found more than one user
    | NotFound                            // handler lookup of the addressed object (404)
    | QuestionDoesNotExist                // unhandled lookup failure in the reset branch

  datatype Result<T> = Ok(value: T) | Err(error: Error)

  /** A check that either passes or reports one error. */
  datatype Outcome = Pass | Fail(error: Error)

  /** A request whose effects can persist even when it reports an error. */
  datatype Effect<T> = Effect(store: Store, result: Result<T>)

  /** The three answer tables are the same. */
  ghost predicate SameAnswers(s: Store, r: Store) {
    r.texts == s.texts && r.singles == s.singles && r.multis == s.multis
  }

  ghost predicate SubMap<K, V>(a: map<K, V>, b: map<K, V>) {
    forall k | k in a :: k in b && b[k] == a[k]
  }

  /** The one element of a singleton set. */
  function TheElement(s: set<Id>): (r: Id)
    requires |s| == 1
    ensures s == {r}
  {
    var x :| x in s;
    assert s == {x} by {
      assert |s - {x}| == 0;
    }
    x
  }

  // ---------------------------------------------------------------------
  // A uniform view of the three answer tables
  // ---------------------------------------------------------------------

  /** Names one row of one of the three answer tables. */
  datatype AnswerKey = TextKey(id: Id) | SingleKey(id: Id) | MultiKey(id: Id) {
    function Kind(): QuestionType {
      match this
      case TextKey(_) => Text
      case SingleKey(_) => Single
      case MultiKey(_) => Multi
    }
  }

  predicate HasAnswer(s: Store, k: AnswerKey) {
    match k
    case TextKey(i) => i in s.texts
    case SingleKey(i) => i in s.singles
    case MultiKey(i) => i in s.multis
  }

  function AnswerQuestion(s: Store, k: AnswerKey): Id
    requires HasAnswer(s, k)
  {
    match k
    case TextKey(i) => s.texts[i].question
    case SingleKey(i) => s.singles[i].question
    case MultiKey(i) => s.multis[i].question
  }

  function AnswerUser(s: Store, k: AnswerKey): Id
    requires HasAnswer(s, k)
  {
    match k
    case TextKey(i) => s.texts[i].user
    case SingleKey(i) => s.singles[i].user
    case MultiKey(i) => s.multis[i].user
  }

  /** Some answer of any kind exists for (question, user). */
  predicate Answered(s: Store, q: Id, u: Id) {
    || (exists i | i in s.texts :: s.texts[i].question == q && s.texts[i].user == u)
    || (exists i | i in s.singles :: s.singles[i].question == q && s.singles[i].user == u)
    || (exists i | i in s.multis :: s.multis[i].question == q && s.multis[i].user == u)
  }

  lemma AnsweredByKey(s: Store, q: Id, u: Id)
    ensures Answered(s, q, u) <==>
            exists k | HasAnswer(s, k) :: AnswerQuestion(s, k) == q && AnswerUser(s, k) == u
  {
    if Answered(s, q, u) {
      if i :| i in s.texts && s.texts[i].question == q && s.texts[i].user == u {
        assert HasAnswer(s, TextKey(i));
      } else if i :| i in s.singles && s.singles[i].question == q && s.singles[i].user == u {
        assert HasAnswer(s, SingleKey(i));
      } else {
        var i :| i in s.multis && s.multis[i].question == q && s.multis[i].user == u;
        assert HasAnswer(s, MultiKey(i));
      }
    }
  }

  // ---------------------------------------------------------------------
  // Store invariants
  // ---------------------------------------------------------------------

  /** Every key of every table was drawn from the counter. */
  ghost predicate IdsFresh(s: Store) {
    && (forall i | i in s.polls :: i < s.nextId)
    && (forall i | i in s.questions :: i < s.nextId)
    && (forall i | i in s.users :: i < s.nextId)
    && (forall i | i in s.texts :: i < s.nextId)
    && (forall i | i in s.singles :: i < s.nextId)
    && (forall i | i in s.variants :: i < s.nextId)
    && (forall i | i in s.multis :: i < s.nextId)
  }

  /** Foreign keys point at existing rows. */
  ghost predicate RefsValid(s: Store) {
    && (forall i | i in s.questions :: s.questions[i].poll in s.polls)
    && (forall k | HasAnswer(s, k) :: AnswerQuestion(s, k) in s.questions && AnswerUser(s, k) in s.users)
    && (forall i | i in s.multis :: s.multis[i].answer <= s.variants.Keys)
  }

  /** At most one answer, of any kind, per (question, user). */
  ghost predicate OneAnswerPerPair(s: Store) {
    forall k1, k2 | HasAnswer(s, k1) && HasAnswer(s, k2) ::
      AnswerQuestion(s, k1) == AnswerQuestion(s, k2) && AnswerUser(s, k1) == AnswerUser(s, k2) ==> k1 == k2
  }

  /** The variant column is unique. */
  ghost predicate VariantsUnique(s: Store) {
    forall i, j | i in s.variants && j in s.variants :: s.variants[i].variant == s.variants[j].variant ==> i == j
  }

  /** The positive small-integer columns hold values in their range. */
  ghost predicate ValuesInRange(s: Store) {
    && (forall i | i in s.singles :: InSmallRange(s.singles[i].answer))
    && (forall i | i in s.variants :: InSmallRange(s.variants[i].variant))
  }

  /** No two anonymous users share a session key. */
  ghost predicate SessionsUnique(s: Store) {
    forall u1, u2 | u1 in s.users && u2 in s.users :: s.users[u1].session == s.users[u2].session ==> u1 == u2
  }

  ghost predicate Valid(s: Store) {
    && IdsFresh(s)
    && RefsValid(s)
    && OneAnswerPerPair(s)
    && VariantsUnique(s)
    && ValuesInRange(s)
    && SessionsUnique(s)
  }

  /** Every answer's kind equals its question's declared type. */
  ghost predicate KindsMatch(s: Store) {
    forall k | HasAnswer(s, k) ::
      AnswerQuestion(s, k) in s.questions && s.questions[AnswerQuestion(s, k)].qtype == k.Kind()
  }

  /** The set of option codes present in the variant table. */
  function VariantValues(s: Store): set<int> {
    set i | i in s.variants :: s.variants[i].variant
  }

  // ---------------------------------------------------------------------
  // Cascades
  // ---------------------------------------------------------------------

  /** Removes every answer, of all three kinds, whose question is in `qs`. */
  function DropAnswersOfQuestions(s: Store, qs: set<Id>): (r: Store)
    ensures r.polls == s.polls && r.questions == s.questions && r.users == s.users
    ensures r.variants == s.variants && r.nextId == s.nextId
    ensures forall k :: HasAnswer(r, k) <==> HasAnswer(s, k) && AnswerQuestion(s, k) !in qs
    ensures SubMap(r.texts, s.texts) && SubMap(r.singles, s.singles) && SubMap(r.multis, s.multis)
  {
    s.(texts := map i | i in s.texts && s.texts[i].question !in qs :: s.texts[i],
       singles := map i | i in s.singles && s.singles[i].question !in qs :: s.singles[i],
       multis := map i | i in s.multis && s.multis[i].question !in qs :: s.multis[i])
  }

  /** Removes every answer, of all three kinds, given by user `u`. */
  function DropAnswersOfUser(s: Store, u: Id): (r: Store)
    ensures r.polls == s.polls && r.questions == s.questions && r.users == s.users
    ensures r.variants == s.variants && r.nextId == s.nextId
    ensures forall k :: HasAnswer(r, k) <==> HasAnswer(s, k) && AnswerUser(s, k) != u
    ensures SubMap(r.texts, s.texts) && SubMap(r.singles, s.singles) && SubMap(r.multis, s.multis)
  {
    s.(texts := map i | i in s.texts && s.texts[i].user != u :: s.texts[i],
       singles := map i | i in s.singles && s.singles[i].user != u :: s.singles[i],
       multis := map i | i in s.multis && s.multis[i].user != u :: s.multis[i])
  }

  /** Deleting a question deletes all of its answers. */
  function DeleteQuestion(s: Store, q: Id): (r: Result<Store>)
    ensures q !in s.questions <==> r == Err(NotFound)
    ensures r.Ok? ==> r.value.questions == s.questions - {q} && r.value.polls == s.polls
    ensures r.Ok? ==> forall k :: HasAnswer(r.value, k) <==> HasAnswer(s, k) && AnswerQuestion(s, k) != q
    ensures r.Ok? ==> r.value.users == s.users && r.value.variants == s.variants && r.value.nextId == s.nextId
    ensures r.Ok? ==> SubMap(r.value.texts, s.texts) && SubMap(r.value.singles, s.singles) && SubMap(r.value.multis, s.multis)
  {
    if q !in s.questions then Err(NotFound)
    else
      var s1 := DropAnswersOfQuestions(s, {q});
      Ok(s1.(questions := s1.questions - {q}))
  }

  /** Deleting a poll deletes its questions and, through them, their answers. */
  function DeletePoll(s: Store, p: Id): (r: Result<Store>)
    ensures p !in s.polls <==> r == Err(NotFound)
    ensures r.Ok? ==> r.value.polls == s.polls - {p}
    ensures r.Ok? ==> forall q :: q in r.value.questions <==> q in s.questions && s.questions[q].poll != p
    ensures r.Ok? ==> forall k :: HasAnswer(r.value, k) <==>
                        HasAnswer(s, k) && (AnswerQuestion(s, k) in s.questions ==>
                                            s.questions[AnswerQuestion(s, k)].poll != p)
    ensures r.Ok? ==> SubMap(r.value.questions, s.questions)
    ensures r.Ok? ==> r.value.users == s.users && r.value.variants == s.variants && r.value.nextId == s.nextId
    ensures r.Ok? ==> SubMap(r.value.texts, s.texts) && SubMap(r.value.singles, s.singles) && SubMap(r.value.multis, s.multis)
  {
    if p !in s.polls then Err(NotFound)
    else
      var gone := set q | q in s.questions && s.questions[q].poll == p;
      var s1 := DropAnswersOfQuestions(s, gone);
      var r := s1.(polls := s1.polls - {p},
                   questions := map q | q in s1.questions && q !in gone :: s1.questions[q]);
      assert forall k :: HasAnswer(r, k) <==> HasAnswer(s1, k);
      Ok(r)
  }

  /** Deleting an anonymous user deletes every answer that user gave. */
  function DeleteUser(s: Store, u: Id): (r: Result<Store>)
    ensures u !in s.users <==> r == Err(NotFound)
    ensures r.Ok? ==> r.value.users == s.users - {u} && r.value.questions == s.questions
    ensures r.Ok? ==> forall k :: HasAnswer(r.value, k) <==> HasAnswer(s, k) && AnswerUser(s, k) != u
    ensures r.Ok? ==> r.value.polls == s.polls && r.value.variants == s.variants && r.value.nextId == s.nextId
    ensures r.Ok? ==> SubMap(r.value.texts, s.texts) && SubMap(r.value.singles, s.singles) && SubMap(r.value.multis, s.multis)
  {
    if u !in s.users then Err(NotFound)
    else
      var s1 := DropAnswersOfUser(s, u);
      Ok(s1.(users := s1.users - {u}))
  }
}

=== FILE: properties.dfy ===
/**
 * Properties that relate several operations: every request keeps the
 * store invariants, an answered question refuses any further answer from
 * the same session, the "my polls" listing shows exactly the caller's
 * answers, and resetting a question's answers hides it from every listing.
 */
module Properties {
  import opened Models
  import opened Serializers
  import opened Views

  // ---------------------------------------------------------------------
  // Requests of the service, as one state machine
  // ---------------------------------------------------------------------

  /** The payload of one of the three answer endpoints. */
  datatype Submission = TextAnswer(text: string) | SingleAnswer(choice: int) | MultiAnswer(values: seq<int>)

  /** The question type a submission is meant for. */
  function SubmissionKind(sub: Submission): QuestionType {
    match sub
    case TextAnswer(_) => Text
    case SingleAnswer(_) => Single
    case MultiAnswer(_) => Multi
  }

  function Submit(s: Store, key: string, q: Id, sub: Submission): Effect<AnswerRepr>
    requires IdsFresh(s)
  {
    match sub
    case TextAnswer(text) => SubmitText(s, key, q, text)
    case SingleAnswer(choice) => SubmitSingle(s, key, q, choice)
    case MultiAnswer(values) => SubmitMulti(s, key, q, values)
  }

  datatype Request =
    | AnswerRequest(key: string, question: Id, submission: Submission)
    | CreatePollRequest(now: Time, name: string, description: string, endDate: Time, isActive: Option<bool>)
    | UpdatePollRequest(now: Time, poll: Id, pollEdit: PollEdit)
    | DeletePollRequest(poll: Id)
    | CreateQuestionRequest(poll: Id, text: string, qtype: QuestionType)
    | UpdateQuestionRequest(question: Id, resetAnswers: RawValue, questionEdit: QuestionEdit)
    | DeleteQuestionRequest(question: Id)
    | DeleteUserRequest(user: Id)

  /** The store a request leaves behind, whether it succeeded or not. */
  function Step(s: Store, req: Request): Store
    requires IdsFresh(s)
  {
    match req
    case AnswerRequest(key, q, sub) => Submit(s, key, q, sub).store
    case CreatePollRequest(now, name, description, endDate, isActive) =>
      (match CreatePoll(s, now, name, description, endDate, isActive) case Ok((s', _)) => s' case Err(_) => s)
    case UpdatePollRequest(now, p, edit) =>
      (match UpdatePoll(s, now, p, edit) case Ok(s') => s' case Err(_) => s)
    case DeletePollRequest(p) =>
      (match DeletePoll(s, p) case Ok(s') => s' case Err(_) => s)
    case CreateQuestionRequest(p, text, qtype) =>
      (match CreateQuestion(s, p, text, qtype) case Ok((s', _)) => s' case Err(_) => s)
    case UpdateQuestionRequest(q, reset, edit) => UpdateQuestionAsWritten(s, q, reset, edit).store
    case DeleteQuestionRequest(q) =>
      (match DeleteQuestion(s, q) case Ok(s') => s' case Err(_) => s)
    case DeleteUserRequest(u) =>
      (match DeleteUser(s, u) case Ok(s') => s' case Err(_) => s)
  }

  /** The store after a sequence of requests, starting from the empty database. */
  function Run(reqs: seq<Request>): (s: Store)
    ensures Valid(s)
    decreases |reqs|
  {
    if |reqs| == 0 then
      assert Valid(EmptyStore());
      EmptyStore()
    else
      var prev := Run(reqs[..|reqs| - 1]);
      StepKeepsValid(prev, reqs[|reqs| - 1]);
      Step(prev, reqs[|reqs| - 1])
  }

  // ---------------------------------------------------------------------
  // Invariant preservation
  // ---------------------------------------------------------------------

  /** Rows kept from `s` keep their question and user. */
  lemma KeptRows(s: Store, r: Store)
    requires SubMap(s.texts, r.texts) && SubMap(s.singles, r.singles) && SubMap(s.multis, r.multis)
    ensures forall k | HasAnswer(s, k) ::
              HasAnswer(r, k) && AnswerQuestion(r, k) == AnswerQuestion(s, k) && AnswerUser(r, k) == AnswerUser(s, k)
  {
  }

  /** Rows still present in `r` were rows of `s`. */
  lemma RemainingRows(s: Store, r: Store)
    requires SubMap(r.texts, s.texts) && SubMap(r.singles, s.singles) && SubMap(r.multis, s.multis)
    ensures forall k | HasAnswer(r, k) ::
              HasAnswer(s, k) && AnswerQuestion(r, k) == AnswerQuestion(s, k) && AnswerUser(r, k) == AnswerUser(s, k)
  {
  }

  lemma FrameKeepsSessions(s: Store, r: Store, key: string)
    requires SessionsUnique(s) && SubmissionFrame(s, r, key)
    ensures SessionsUnique(r)
    ensures SubMap(s.users, r.users)
  {
    if r.users != s.users {
      forall u | u in s.users ensures s.users[u].session != key {
        assert u !in SessionUsers(s, key);
      }
      forall u1, u2 | u1 in r.users && u2 in r.users && r.users[u1].session == r.users[u2].session
        ensures u1 == u2
      {
        if u1 != s.nextId && u2 != s.nextId {
          assert u1 in s.users && u2 in s.users;
        }
      }
    }
  }

  /** A failed submission changes at most the user table, and that only for a new session. */
  lemma UserOnlyKeepsValid(s: Store, r: Store, key: string)
    requires Valid(s) && SubmissionFrame(s, r, key)
    requires SameAnswers(s, r) && r.variants == s.variants
    ensures Valid(r)
    ensures KindsMatch(s) ==> KindsMatch(r)
  {
    FrameKeepsSessions(s, r, key);
    assert forall k :: HasAnswer(r, k) <==> HasAnswer(s, k);
    assert forall k | HasAnswer(s, k) :: AnswerQuestion(r, k) == AnswerQuestion(s, k) && AnswerUser(r, k) == AnswerUser(s, k);
    assert RefsValid(r);
    assert OneAnswerPerPair(r);
  }

  lemma AddedAnswerKeepsValid(s: Store, r: Store, k: AnswerKey, key: string, q: Id)
    requires Valid(s) && SubmissionFrame(s, r, key) && AddedOneAnswer(s, r, k, key, q)
    requires q in s.questions
    requires VariantsUnique(r) && ValuesInRange(r)
    requires forall i | i in r.multis :: r.multis[i].answer <= r.variants.Keys
    ensures Valid(r)
    ensures KindsMatch(s) && s.questions[q].qtype == k.Kind() ==> KindsMatch(r)
  {
    FrameKeepsSessions(s, r, key);
    KeptRows(s, r);
    AddedKeepsRefs(s, r, k, key, q);
    AddedKeepsOnePerPair(s, r, k, key, q);
    if KindsMatch(s) && s.questions[q].qtype == k.Kind() {
      AddedKeepsKinds(s, r, k, key, q);
    }
  }

  lemma AddedKeepsRefs(s: Store, r: Store, k: AnswerKey, key: string, q: Id)
    requires RefsValid(s) && SubMap(s.users, r.users) && r.questions == s.questions && q in s.questions
    requires AddedOneAnswer(s, r, k, key, q)
    requires forall k2 | HasAnswer(s, k2) :: AnswerQuestion(r, k2) == AnswerQuestion(s, k2) && AnswerUser(r, k2) == AnswerUser(s, k2)
    ensures forall k2 | HasAnswer(r, k2) :: AnswerQuestion(r, k2) in r.questions && AnswerUser(r, k2) in r.users
  {
  }

  lemma AddedKeepsOnePerPair(s: Store, r: Store, k: AnswerKey, key: string, q: Id)
    requires OneAnswerPerPair(s) && AddedOneAnswer(s, r, k, key, q)
    requires forall k2 | HasAnswer(s, k2) :: AnswerQuestion(r, k2) == AnswerQuestion(s, k2) && AnswerUser(r, k2) == AnswerUser(s, k2)
    ensures OneAnswerPerPair(r)
  {
  }

  lemma AddedKeepsKinds(s: Store, r: Store, k: AnswerKey, key: string, q: Id)
    requires KindsMatch(s) && AddedOneAnswer(s, r, k, key, q) && r.questions == s.questions
    requires q in s.questions && s.questions[q].qtype == k.Kind()
    requires forall k2 | HasAnswer(s, k2) :: AnswerQuestion(r, k2) == AnswerQuestion(s, k2)
    ensures KindsMatch(r)
  {
  }

  lemma SubmitTextKeepsValid(s: Store, key: string, q: Id, text: string)
    requires Valid(s)
    ensures Valid(SubmitText(s, key, q, text).store)
    ensures KindsMatch(s) ==> KindsMatch(SubmitText(s, key, q, text).store)
  {
    var r := SubmitText(s, key, q, text);
    if r.result.Ok? {
      var id := r.result.value.id;
      assert SingleKey(0).Kind() == Single;
      forall i | i in r.store.singles ensures InSmallRange(r.store.singles[i].answer) {
        assert i in s.singles;
      }
      AddedAnswerKeepsValid(s, r.store, TextKey(id), key, q);
    } else {
      UserOnlyKeepsValid(s, r.store, key);
    }
  }

  lemma SubmitSingleKeepsValid(s: Store, key: string, q: Id, choice: int)
    requires Valid(s)
    ensures Valid(SubmitSingle(s, key, q, choice).store)
    ensures KindsMatch(s) ==> KindsMatch(SubmitSingle(s, key, q, choice).store)
  {
    var r := SubmitSingle(s, key, q, choice);
    if r.result.Ok? {
      var id := r.result.value.id;
      AddedRowsKeepRanges(s, r.store, SingleKey(id), key, q);
      AddedAnswerKeepsValid(s, r.store, SingleKey(id), key, q);
    } else {
      UserOnlyKeepsValid(s, r.store, key);
    }
  }

  /**
   * Rows other than the added one were already there, so they keep their
   * choice range and their links into the variant table.
   */
  lemma AddedRowsKeepRanges(s: Store, r: Store, k: AnswerKey, key: string, q: Id)
    requires ValuesInRange(s) && RefsValid(s) && AddedOneAnswer(s, r, k, key, q) && SubMap(s.variants, r.variants)
    requires k.SingleKey? ==> InSmallRange(r.singles[k.id].answer)
    requires k.MultiKey? ==> r.multis[k.id].answer <= r.variants.Keys
    ensures forall i | i in r.singles :: InSmallRange(r.singles[i].answer)
    ensures forall i | i in r.multis :: r.multis[i].answer <= r.variants.Keys
  {
    forall i | i in r.singles ensures InSmallRange(r.singles[i].answer) {
      if SingleKey(i) != k {
        assert HasAnswer(r, SingleKey(i));
        assert HasAnswer(s, SingleKey(i));
      }
    }
    forall i | i in r.multis ensures r.multis[i].answer <= r.variants.Keys {
      if MultiKey(i) != k {
        assert HasAnswer(r, MultiKey(i));
        assert HasAnswer(s, MultiKey(i));
      }
    }
  }

  /** Option values drawn from an in-range table and in-range submissions are in range. */
  lemma VariantsStayInRange(s: Store, r: Store, values: seq<int>)
    requires forall i | i in s.variants :: InSmallRange(s.variants[i].variant)
    requires forall i | 0 <= i < |values| :: InSmallRange(values[i])
    requires VariantValues(r) == VariantValues(s) + Elems(values)
    ensures forall i | i in r.variants :: InSmallRange(r.variants[i].variant)
  {
    forall i | i in r.variants ensures InSmallRange(r.variants[i].variant) {
      var x := r.variants[i].variant;
      assert x in VariantValues(r);
      if x !in VariantValues(s) {
        assert x in Elems(values);
      } else {
        var j :| j in s.variants && s.variants[j].variant == x;
      }
    }
  }

  lemma SubmitMultiKeepsValid(s: Store, key: string, q: Id, values: seq<int>)
    requires Valid(s)
    ensures Valid(SubmitMulti(s, key, q, values).store)
    ensures KindsMatch(s) ==> KindsMatch(SubmitMulti(s, key, q, values).store)
  {
    var r := SubmitMulti(s, key, q, values);
    if r.result.Ok? {
      var id := r.result.value.id;
      VariantsStayInRange(s, r.store, values);
      AddedRowsKeepRanges(s, r.store, MultiKey(id), key, q);
      AddedAnswerKeepsValid(s, r.store, MultiKey(id), key, q);
    } else {
      UserOnlyKeepsValid(s, r.store, key);
    }
  }

  lemma SubmitKeepsValid(s: Store, key: string, q: Id, sub: Submission)
    requires Valid(s)
    ensures Valid(Submit(s, key, q, sub).store)
    ensures KindsMatch(s) ==> KindsMatch(Submit(s, key, q, sub).store)
  {
    match sub
    case TextAnswer(text) => SubmitTextKeepsValid(s, key, q, text);
    case SingleAnswer(choice) => SubmitSingleKeepsValid(s, key, q, choice);
    case MultiAnswer(values) => SubmitMultiKeepsValid(s, key, q, values);
  }

  /** Removing answers and any rows nothing refers to keeps the invariants. */
  lemma ShrunkAnswersKeepValid(s: Store, r: Store)
    requires Valid(s)
    requires IdsFresh(r) && r.variants == s.variants
    requires SubMap(r.texts, s.texts) && SubMap(r.singles, s.singles) && SubMap(r.multis, s.multis)
    requires SubMap(r.users, s.users)
    requires forall i | i in r.questions :: r.questions[i].poll in r.polls
    requires forall k | HasAnswer(r, k) :: AnswerQuestion(r, k) in r.questions && AnswerUser(r, k) in r.users
    ensures Valid(r)
  {
    RemainingRows(s, r);
    assert OneAnswerPerPair(r) by {
      forall k1, k2 | HasAnswer(r, k1) && HasAnswer(r, k2) &&
                      AnswerQuestion(r, k1) == AnswerQuestion(r, k2) && AnswerUser(r, k1) == AnswerUser(r, k2)
        ensures k1 == k2
      {
        assert HasAnswer(s, k1) && HasAnswer(s, k2);
      }
    }
    assert forall i | i in r.singles :: i in s.singles;
    assert forall i | i in r.multis :: i in s.multis;
  }

  lemma DeleteQuestionKeepsValid(s: Store, q: Id)
    requires Valid(s) && DeleteQuestion(s, q).Ok?
    ensures Valid(DeleteQuestion(s, q).value)
    ensures KindsMatch(s) ==> KindsMatch(DeleteQuestion(s, q).value)
  {
    var r := DeleteQuestion(s, q).value;
    RemainingRows(s, r);
    ShrunkAnswersKeepValid(s, r);
  }

  lemma DeletePollKeepsValid(s: Store, p: Id)
    requires Valid(s) && DeletePoll(s, p).Ok?
    ensures Valid(DeletePoll(s, p).value)
    ensures KindsMatch(s) ==> KindsMatch(DeletePoll(s, p).value)
  {
    var r := DeletePoll(s, p).value;
    RemainingRows(s, r);
    ShrunkAnswersKeepValid(s, r);
  }

  lemma DeleteUserKeepsValid(s: Store, u: Id)
    requires Valid(s) && DeleteUser(s, u).Ok?
    ensures Valid(DeleteUser(s, u).value)
    ensures KindsMatch(s) ==> KindsMatch(DeleteUser(s, u).value)
  {
    var r := DeleteUser(s, u).value;
    RemainingRows(s, r);
    ShrunkAnswersKeepValid(s, r);
  }

  lemma UpdateQuestionKeepsValid(s: Store, q: Id, reset: bool, edit: QuestionEdit)
    requires Valid(s)
    ensures Valid(UpdateQuestion(s, q, reset, edit).store)
  {
    var r := UpdateQuestion(s, q, reset, edit).store;
    RemainingRows(s, r);
    ShrunkAnswersKeepValid(s, r);
  }

  /**
   * The handler as written keeps the store valid, also when it refuses an
   * unreadable flag after the deletion.
   */
  lemma UpdateQuestionAsWrittenKeepsValid(s: Store, q: Id, raw: RawValue, edit: QuestionEdit)
    requires Valid(s)
    ensures Valid(UpdateQuestionAsWritten(s, q, raw, edit).store)
  {
    if ParseBoolean(raw).Some? {
      UpdateQuestionKeepsValid(s, q, Truthy(raw), edit);
    } else {
      var r := UpdateQuestionAsWritten(s, q, raw, edit).store;
      RemainingRows(s, r);
      ShrunkAnswersKeepValid(s, r);
    }
  }

  /** The corrected handler keeps the store valid as well. */
  lemma UpdateQuestionCheckedKeepsValid(s: Store, q: Id, raw: RawValue, edit: QuestionEdit)
    requires Valid(s)
    ensures Valid(UpdateQuestionChecked(s, q, raw, edit).store)
  {
    if ParseBoolean(raw).Some? {
      UpdateQuestionKeepsValid(s, q, ParseBoolean(raw).value, edit);
    }
  }

  /**
   * The answers' kinds still match their questions' types after an update
   * that resets the answers or leaves the type as it was.
   */
  lemma UpdateQuestionKeepsKinds(s: Store, q: Id, reset: bool, edit: QuestionEdit)
    requires KindsMatch(s)
    requires reset || edit.qtype.None? || (q in s.questions && edit.qtype == Some(s.questions[q].qtype))
    ensures KindsMatch(UpdateQuestion(s, q, reset, edit).store)
  {
    var r := UpdateQuestion(s, q, reset, edit).store;
    RemainingRows(s, r);
  }

  lemma CreatePollKeepsValid(s: Store, now: Time, name: string, description: string, endDate: Time, isActive: Option<bool>)
    requires Valid(s) && CreatePoll(s, now, name, description, endDate, isActive).Ok?
    ensures Valid(CreatePoll(s, now, name, description, endDate, isActive).value.0)
    ensures KindsMatch(s) ==> KindsMatch(CreatePoll(s, now, name, description, endDate, isActive).value.0)
  {
    var r := CreatePoll(s, now, name, description, endDate, isActive).value.0;
    KeptRows(s, r);
    RemainingRows(s, r);
  }

  lemma UpdatePollKeepsValid(s: Store, now: Time, p: Id, edit: PollEdit)
    requires Valid(s) && UpdatePoll(s, now, p, edit).Ok?
    ensures Valid(UpdatePoll(s, now, p, edit).value)
    ensures KindsMatch(s) ==> KindsMatch(UpdatePoll(s, now, p, edit).value)
  {
    var r := UpdatePoll(s, now, p, edit).value;
    RemainingRows(s, r);
  }

  lemma CreateQuestionKeepsValid(s: Store, p: Id, text: string, qtype: QuestionType)
    requires Valid(s) && CreateQuestion(s, p, text, qtype).Ok?
    ensures Valid(CreateQuestion(s, p, text, qtype).value.0)
    ensures KindsMatch(s) ==> KindsMatch(CreateQuestion(s, p, text, qtype).value.0)
  {
    var r := CreateQuestion(s, p, text, qtype).value.0;
    KeptRows(s, r);
    RemainingRows(s, r);
  }

  /** Every request, successful or not, leaves a valid store valid. */
  lemma StepKeepsValid(s: Store, req: Request)
    requires Valid(s)
    ensures Valid(Step(s, req))
  {
    match req
    case AnswerRequest(key, q, sub) => SubmitKeepsValid(s, key, q, sub);
    case CreatePollRequest(now, name, description, endDate, isActive) =>
      if CreatePoll(s, now, name, description, endDate, isActive).Ok? {
        CreatePollKeepsValid(s, now, name, description, endDate, isActive);
      }
    case UpdatePollRequest(now, p, edit) =>
      if UpdatePoll(s, now, p, edit).Ok? {
        UpdatePollKeepsValid(s, now, p, edit);
      }
    case DeletePollRequest(p) =>
      if DeletePoll(s, p).Ok? {
        DeletePollKeepsValid(s, p);
      }
    case CreateQuestionRequest(p, text, qtype) =>
      if CreateQuestion(s, p, text, qtype).Ok? {
        CreateQuestionKeepsValid(s, p, text, qtype);
      }
    case UpdateQuestionRequest(q, reset, edit) =>
      UpdateQuestionAsWrittenKeepsValid(s, q, reset, edit);
    case DeleteQuestionRequest(q) =>
      if DeleteQuestion(s, q).Ok? {
        DeleteQuestionKeepsValid(s, q);
      }
    case DeleteUserRequest(u) =>
      if DeleteUser(s, u).Ok? {
        DeleteUserKeepsValid(s, u);
      }
  }

  // ---------------------------------------------------------------------
  // One answer per (question, session)
  // ---------------------------------------------------------------------

  /** The user the handler resolves has answered `q` exactly when the session has. */
  lemma ResolvedUserAnswered(s: Store, key: string, q: Id, s1: Store, u: Id)
    requires Valid(s)
    requires GetOrCreateUser(s, key) == Ok((s1, u))
    ensures (exists k | HasAnswer(s1, k) :: AnswerQuestion(s1, k) == q && AnswerUser(s1, k) == u)
            <==> CallerAnswered(s, key, q)
  {
    SessionUsersAtMostOne(s, key);
    KeptRows(s, s1);
    if SessionUsers(s, key) == {} {
      forall k | HasAnswer(s1, k) ensures AnswerUser(s1, k) != u {
        assert HasAnswer(s, k);
      }
      forall k | HasAnswer(s, k) ensures !IsCaller(s, key, AnswerUser(s, k)) {
        assert AnswerUser(s, k) !in SessionUsers(s, key);
      }
    } else {
      assert SessionUsers(s, key) == {u};
      forall k | HasAnswer(s, k) && IsCaller(s, key, AnswerUser(s, k)) ensures AnswerUser(s, k) == u {
        assert AnswerUser(s, k) in SessionUsers(s, key);
      }
    }
  }

  /**
   * Once validation passes, a text answer is refused exactly when the
   * session already answered the question, in any kind.
   */
  lemma SubmitTextRefusedIffAnswered(s: Store, key: string, q: Id, text: string)
    requires Valid(s)
    requires q in s.questions && s.questions[q].qtype == Text
    ensures SubmitText(s, key, q, text).result.Err? <==> CallerAnswered(s, key, q)
    ensures SubmitText(s, key, q, text).result.Err? ==> SubmitText(s, key, q, text).result.error == AlreadyAnswered
  {
    SessionUsersAtMostOne(s, key);
    var (s1, u) := GetOrCreateUser(s, key).value;
    ResolvedUserAnswered(s, key, q, s1, u);
  }

  lemma SubmitSingleRefusedIffAnswered(s: Store, key: string, q: Id, choice: int)
    requires Valid(s)
    requires q in s.questions && s.questions[q].qtype == Single && InSmallRange(choice)
    ensures SubmitSingle(s, key, q, choice).result.Err? <==> CallerAnswered(s, key, q)
    ensures SubmitSingle(s, key, q, choice).result.Err? ==> SubmitSingle(s, key, q, choice).result.error == AlreadyAnswered
  {
    SessionUsersAtMostOne(s, key);
    var (s1, u) := GetOrCreateUser(s, key).value;
    ResolvedUserAnswered(s, key, q, s1, u);
  }

  /**
   * Once validation passes, a multi answer is refused as already answered
   * exactly when the session answered the question; otherwise only a value
   * outside the column's range can refuse it.
   */
  lemma SubmitMultiRefusedIffAnswered(s: Store, key: string, q: Id, values: seq<int>)
    requires Valid(s)
    requires q in s.questions && s.questions[q].qtype == Multi && Distinct(values)
    ensures CallerAnswered(s, key, q) ==> SubmitMulti(s, key, q, values).result == Err(AlreadyAnswered)
    ensures !CallerAnswered(s, key, q) ==>
              (SubmitMulti(s, key, q, values).result.Ok? <==> forall i | 0 <= i < |values| :: InSmallRange(values[i]))
  {
    SessionUsersAtMostOne(s, key);
    var (s1, u) := GetOrCreateUser(s, key).value;
    ResolvedUserAnswered(s, key, q, s1, u);
  }

  /** A session that answered `q` has every further answer to `q` refused, whatever its kind. */
  lemma AnsweredSessionRefused(s: Store, key: string, q: Id, sub: Submission)
    requires Valid(s) && CallerAnswered(s, key, q)
    ensures Submit(s, key, q, sub).result.Err?
  {
    match sub
    case TextAnswer(text) =>
      if q in s.questions && s.questions[q].qtype == Text {
        SubmitTextRefusedIffAnswered(s, key, q, text);
      }
    case SingleAnswer(choice) =>
      if q in s.questions && s.questions[q].qtype == Single && InSmallRange(choice) {
        SubmitSingleRefusedIffAnswered(s, key, q, choice);
      }
    case MultiAnswer(values) =>
      if q in s.questions && s.questions[q].qtype == Multi && Distinct(values) {
        SubmitMultiRefusedIffAnswered(s, key, q, values);
      }
  }

  /** The key of the row a successful submission created. */
  function CreatedKey(sub: Submission, id: Id): AnswerKey {
    match sub
    case TextAnswer(_) => TextKey(id)
    case SingleAnswer(_) => SingleKey(id)
    case MultiAnswer(_) => MultiKey(id)
  }

  lemma SubmitAdded(s: Store, key: string, q: Id, sub: Submission)
    requires IdsFresh(s) && Submit(s, key, q, sub).result.Ok?
    ensures var r := Submit(s, key, q, sub);
            && AddedOneAnswer(s, r.store, CreatedKey(sub, r.result.value.id), key, q)
            && Representation(r.store, CreatedKey(sub, r.result.value.id)) == r.result.value
            && SubmissionFrame(s, r.store, key)
  {
  }

  /** Two answers from one session to one question: the second is refused, whatever the kinds. */
  lemma SecondSubmissionRefused(s: Store, key: string, q: Id, first: Submission, second: Submission)
    requires Valid(s)
    requires Submit(s, key, q, first).result.Ok?
    ensures Submit(Submit(s, key, q, first).store, key, q, second).result.Err?
  {
    var r := Submit(s, key, q, first);
    SubmitKeepsValid(s, key, q, first);
    SubmitAdded(s, key, q, first);
    var k := CreatedKey(first, r.result.value.id);
    assert HasAnswer(r.store, k) && AnswerQuestion(r.store, k) == q && IsCaller(r.store, key, AnswerUser(r.store, k));
    AnsweredSessionRefused(r.store, key, q, second);
  }

  // ---------------------------------------------------------------------
  // The "my polls" listing
  // ---------------------------------------------------------------------

  /**
   * In a valid store the session has one answer per listed question, so the
   * merged answer is that answer whatever the merge's precedence.
   */
  lemma MyPollsShowsTheAnswer(s: Store, key: string, k: AnswerKey)
    requires Valid(s) && HasAnswer(s, k) && IsCaller(s, key, AnswerUser(s, k))
    ensures forall v, qv | v in MyPolls(s, key) && qv in v.questions && qv.id == AnswerQuestion(s, k) ::
              qv.answer == FlatAnswer(k.id, Representation(s, k).data)
  {
  }

  /** After a successful submission the caller's listing shows the poll, the question and the submitted answer. */
  lemma MyPollsShowsSubmission(s: Store, key: string, q: Id, sub: Submission)
    requires Valid(s) && Submit(s, key, q, sub).result.Ok?
    ensures var r := Submit(s, key, q, sub);
            exists v, qv | v in MyPolls(r.store, key) && qv in v.questions ::
              v.id == s.questions[q].poll && qv.id == q
              && qv.answer == FlatAnswer(r.result.value.id, r.result.value.data)
  {
    var r := Submit(s, key, q, sub);
    SubmitKeepsValid(s, key, q, sub);
    SubmitAdded(s, key, q, sub);
    var k := CreatedKey(sub, r.result.value.id);
    CallerAnswerShown(r.store, key, k);
  }

  /** In a valid store every answer of the caller is shown, under its poll and question. */
  lemma CallerAnswerShown(s: Store, key: string, k: AnswerKey)
    requires Valid(s) && HasAnswer(s, k) && IsCaller(s, key, AnswerUser(s, k))
    ensures var q := AnswerQuestion(s, k);
            exists v, qv | v in MyPolls(s, key) && qv in v.questions ::
              v.id == s.questions[q].poll && qv.id == q && qv.answer == FlatAnswer(k.id, Representation(s, k).data)
  {
    var q := AnswerQuestion(s, k);
    assert CallerAnswered(s, key, q);
    AnsweredBySessionByKey(s, key, q);
    var listing := MyPolls(s, key);
    var v :| v in listing && v.id == s.questions[q].poll;
    var qv :| qv in v.questions && qv.id == q;
    MyPollsShowsTheAnswer(s, key, k);
  }

  /** A submission by one session gives no other session an answer to `q`. */
  lemma OtherSessionStillUnanswered(s: Store, key: string, other: string, q: Id, sub: Submission)
    requires Valid(s) && other != key && !CallerAnswered(s, other, q)
    ensures !CallerAnswered(Submit(s, key, q, sub).store, other, q)
  {
    var r := Submit(s, key, q, sub);
    var s' := r.store;
    assert SubmissionFrame(s, s', key);
    if r.result.Ok? {
      SubmitAdded(s, key, q, sub);
    }
    KeptRows(s, s');
    forall k | HasAnswer(s', k) && AnswerQuestion(s', k) == q ensures !IsCaller(s', other, AnswerUser(s', k)) {
      var u := AnswerUser(s', k);
      if HasAnswer(s, k) {
        assert u == AnswerUser(s, k) && !IsCaller(s, other, u);
        assert u in s.users;
      } else {
        assert IsCaller(s', key, u);
      }
    }
  }

  /**
   * A submission to a question of another type is refused as a type
   * mismatch and changes nothing, whether or not the session has answered
   * it already: validation runs before the "already answered" check.
   */
  lemma TypeMismatchReportedFirst(s: Store, key: string, q: Id, sub: Submission)
    requires IdsFresh(s) && q in s.questions && s.questions[q].qtype != SubmissionKind(sub)
    requires sub.SingleAnswer? ==> InSmallRange(sub.choice)
    ensures Submit(s, key, q, sub) == Effect(s, Err(AnswerTypeMismatch(SubmissionKind(sub), s.questions[q].qtype)))
  {
  }

  /** A submission by one session shows nothing new in the listing of another. */
  lemma OtherSessionUnaffected(s: Store, key: string, other: string, q: Id, sub: Submission)
    requires Valid(s) && other != key && !CallerAnswered(s, other, q)
    ensures forall v, qv | v in MyPolls(Submit(s, key, q, sub).store, other) && qv in v.questions :: qv.id != q
  {
    OtherSessionStillUnanswered(s, key, other, q, sub);
  }

  // ---------------------------------------------------------------------
  // Question update with reset
  // ---------------------------------------------------------------------

  lemma UpdateQuestionKeepsIds(s: Store, q: Id, reset: bool, edit: QuestionEdit)
    requires IdsFresh(s)
    ensures IdsFresh(UpdateQuestion(s, q, reset, edit).store)
  {
  }

  /** A reset question disappears from every session's listing. */
  lemma ResetHidesQuestion(s: Store, q: Id, edit: QuestionEdit, key: string)
    requires IdsFresh(s) && q in s.questions
    ensures IdsFresh(UpdateQuestion(s, q, true, edit).store)
    ensures forall v, qv | v in MyPolls(UpdateQuestion(s, q, true, edit).store, key) && qv in v.questions :: qv.id != q
  {
    UpdateQuestionKeepsIds(s, q, true, edit);
  }

  /** The answers left behind do not depend on the requested field changes. */
  lemma ResetIgnoresEdit(s: Store, q: Id, edit1: QuestionEdit, edit2: QuestionEdit)
    requires q in s.questions
    ensures SameAnswers(UpdateQuestion(s, q, true, edit1).store, UpdateQuestion(s, q, true, edit2).store)
  {
  }

  /** The deletion is not undone when the field update is then rejected. */
  lemma ResetSurvivesRejectedEdit(s: Store, q: Id, edit: QuestionEdit)
    requires q in s.questions && edit.poll.Some? && edit.poll.value !in s.polls
    ensures UpdateQuestion(s, q, true, edit).result == Err(InvalidFields({PollField}))
    ensures UpdateQuestion(s, q, true, edit).store.questions == s.questions
    ensures forall k | HasAnswer(UpdateQuestion(s, q, true, edit).store, k) ::
              AnswerQuestion(UpdateQuestion(s, q, true, edit).store, k) != q
  {
  }

  /** A small store: poll 0, text question 1, user 2 with text answer 3. */
  function StaleAnswerExample(): Store {
    Store(map[0 := Poll("p", "", 0, 10, true)],
          map[1 := Question(0, "q", Text)],
          map[2 := UserAnonymous("k")],
          map[3 := AnswerText(1, 2, "a")],
          map[], map[], map[], 4)
  }

  /**
   * Changing a question's type without resetting its answers leaves an
   * answer whose kind no longer matches: the kind invariant is kept only by
   * the updates `UpdateQuestionKeepsKinds` admits.
   */
  lemma TypeChangeWithoutResetLeavesStaleAnswer()
    ensures Valid(StaleAnswerExample()) && KindsMatch(StaleAnswerExample())
    ensures UpdateQuestion(StaleAnswerExample(), 1, false, QuestionEdit(None, None, Some(Single))).result.Ok?
    ensures !KindsMatch(UpdateQuestion(StaleAnswerExample(), 1, false, QuestionEdit(None, None, Some(Single))).store)
  {
    var s := StaleAnswerExample();
    StaleAnswerExampleValid();
    var r := UpdateQuestion(s, 1, false, QuestionEdit(None, None, Some(Single))).store;
    assert HasAnswer(r, TextKey(3)) && r.questions[1].qtype == Single;
  }

  lemma StaleAnswerExampleValid()
    ensures Valid(StaleAnswerExample()) && KindsMatch(StaleAnswerExample())
  {
  }

  /**
   * A form that sends the flag as the text "false" still deletes the
   * question's answers: the boolean field reads the text as false, but the
   * handler tests the raw text, which is non-empty and so truthy.
   */
  lemma FormFalseDeletesAnswers()
    ensures ParseBoolean(RawText("false")) == Some(false)
    ensures HasAnswer(StaleAnswerExample(), TextKey(3)) && AnswerQuestion(StaleAnswerExample(), TextKey(3)) == 1
    ensures !HasAnswer(UpdateQuestionAsWritten(StaleAnswerExample(), 1, RawText("false"), QuestionEdit(None, None, None)).store,
                       TextKey(3))
    ensures HasAnswer(UpdateQuestionChecked(StaleAnswerExample(), 1, RawText("false"), QuestionEdit(None, None, None)).store,
                      TextKey(3))
  {
  }

  /**
   * A flag the boolean field cannot read is refused with a validation error
   * and the question keeps its fields, but a truthy one has already deleted
   * the question's answers by then.
   */
  lemma UnreadableFlagRefusedAfterDeletion()
    ensures ParseBoolean(RawText("maybe")).None?
    ensures UpdateQuestionAsWritten(StaleAnswerExample(), 1, RawText("maybe"), QuestionEdit(None, Some("new"), None)).result
            == Err(InvalidFields({ResetAnswersField}))
    ensures UpdateQuestionAsWritten(StaleAnswerExample(), 1, RawText("maybe"), QuestionEdit(None, Some("new"), None))
              .store.questions[1].text == "q"
    ensures !HasAnswer(UpdateQuestionAsWritten(StaleAnswerExample(), 1, RawText("maybe"), QuestionEdit(None, Some("new"), None)).store,
                       TextKey(3))
    ensures UpdateQuestionAsWritten(StaleAnswerExample(), 1, RawNull, QuestionEdit(None, Some("new"), None))
            == Effect(StaleAnswerExample(), Err(InvalidFields({ResetAnswersField})))
  {
    var edit := QuestionEdit(None, Some("new"), None);
    assert 1 in StaleAnswerExample().questions && ParseBoolean(RawText("maybe")).None?;
    assert {ResetAnswersField} + PollErrors(StaleAnswerExample(), edit) == {ResetAnswersField};
  }

  /**
   * For every text spelling of false the checked update keeps all answers,
   * while the update as written deletes every answer to the question.
   */
  lemma FalseSpellingsDiverge(s: Store, q: Id, t: string, edit: QuestionEdit)
    requires t in FalseSpellings && q in s.questions
    ensures SameAnswers(s, UpdateQuestionChecked(s, q, RawText(t), edit).store)
    ensures forall k | HasAnswer(s, k) && AnswerQuestion(s, k) == q ::
              !HasAnswer(UpdateQuestionAsWritten(s, q, RawText(t), edit).store, k)
  {
  }

  /** On a JSON boolean the handler's truthiness test and the boolean field agree. */
  lemma CheckedAgreesOnBooleans(s: Store, q: Id, b: bool, edit: QuestionEdit)
    ensures UpdateQuestionChecked(s, q, RawBool(b), edit) == UpdateQuestionAsWritten(s, q, RawBool(b), edit)
  {
  }

  // ---------------------------------------------------------------------
  // Polls
  // ---------------------------------------------------------------------

  /** A poll created without the flag is not listed as active. */
  lemma NewPollNotActive(s: Store, now: Time, name: string, description: string, endDate: Time)
    requires IdsFresh(s) && now <= endDate
    ensures var (s', p) := CreatePoll(s, now, name, description, endDate, None).value;
            p !in ActivePolls(s') && s'.polls[p].startDate == now
  {
  }

  /** A poll switched off disappears from the active listing; nothing else in it changes. */
  lemma DeactivatedPollLeavesActiveList(s: Store, now: Time, p: Id, edit: PollEdit)
    requires edit.isActive == Some(false) && UpdatePoll(s, now, p, edit).Ok?
    ensures ActivePolls(UpdatePoll(s, now, p, edit).value).Keys == ActivePolls(s).Keys - {p}
  {
  }
}

=== FILE: serializers.dfy ===
/**
 * The serializer layer: the two answer guards, the end-date check, each
 * answer kind's validate/create/to_representation, and the merge that
 * flattens a question's three answer lists into one `answer`.
 */
module Serializers {
  import opened Models

  /** The value a representation carries under `answer_data`. */
  datatype AnswerData = TextData(text: string) | SingleData(choice: int) | MultiData(choices: set<int>)

  /** `{id, question, answer_data}` as returned after an answer is created. */
  datatype AnswerRepr = AnswerRepr(id: Id, question: Id, data: AnswerData)

  /** An answer representation with its `question` entry removed. */
  datatype FlatAnswer = FlatAnswer(id: Id, data: AnswerData)

  // ---------------------------------------------------------------------
  // Guards
  // ---------------------------------------------------------------------

  /** Refuses a second answer, of any kind, by the same user to the same question. */
  function CheckNotAnswered(s: Store, q: Id, u: Id): (r: Outcome)
    ensures r.Fail? <==> exists k | HasAnswer(s, k) :: AnswerQuestion(s, k) == q && AnswerUser(s, k) == u
    ensures r.Fail? ==> r.error == AlreadyAnswered
  {
    AnsweredByKey(s, q, u);
    if Answered(s, q, u) then Fail(AlreadyAnswered) else Pass
  }

  /** Refuses an answer whose kind differs from the question's declared type. */
  function CheckAnswerType(s: Store, expected: QuestionType, q: Id): (r: Outcome)
    ensures r.Pass? <==> q in s.questions && s.questions[q].qtype == expected
    ensures q !in s.questions ==> r == Fail(QuestionLookupFailed)
    ensures q in s.questions && s.questions[q].qtype != expected ==>
              r == Fail(AnswerTypeMismatch(expected, s.questions[q].qtype))
  {
    if q !in s.questions then Fail(QuestionLookupFailed)
    else
      var actual := s.questions[q].qtype;
      if actual != expected then Fail(AnswerTypeMismatch(expected, actual)) else Pass
  }

  /** A poll's end date may equal "now" but may not lie before it. */
  function ValidateEndDate(now: Time, endDate: Time): (r: Result<Time>)
    ensures r.Ok? <==> now <= endDate
    ensures r.Ok? ==> r.value == endDate
    ensures r.Err? ==> r.error == EndDateInPast
  {
    if now > endDate then Err(EndDateInPast) else Ok(endDate)
  }

  // ---------------------------------------------------------------------
  // Duplicate option values
  // ---------------------------------------------------------------------

  function Elems(v: seq<int>): set<int> {
    set x | x in v
  }

  /** No value occurs twice. */
  ghost predicate Distinct(v: seq<int>) {
    forall i, j | 0 <= i < j < |v| :: v[i] != v[j]
  }

  /** The list is longer than the set of its values. */
  predicate HasRepeats(v: seq<int>) {
    |v| > |Elems(v)|
  }

  lemma {:induction false} ElemsSize(v: seq<int>)
    ensures |Elems(v)| <= |v|
    ensures |Elems(v)| == |v| <==> Distinct(v)
  {
    if |v| > 0 {
      var t := v[1..];
      ElemsSize(t);
      assert Elems(v) == {v[0]} + Elems(t) by {
        forall x ensures x in Elems(v) <==> x == v[0] || x in Elems(t) {
          if x in Elems(v) && x != v[0] {
            var i :| 0 <= i < |v| && v[i] == x;
            assert t[i - 1] == x;
          }
        }
      }
      if v[0] in Elems(t) {
        var j :| 0 <= j < |t| && t[j] == v[0];
        assert v[0] == v[j + 1];
        assert !Distinct(v);
      } else {
        assert |Elems(v)| == |Elems(t)| + 1;
        if Distinct(t) {
          forall i, j | 0 <= i < j < |v| ensures v[i] != v[j] {
            if i == 0 {
              assert v[j] == t[j - 1];
            } else {
              assert v[i] == t[i - 1] && v[j] == t[j - 1];
            }
          }
        } else {
          var i, j :| 0 <= i < j < |t| && t[i] == t[j];
          assert v[i + 1] == v[j + 1];
        }
      }
    }
  }

  /** The duplicate test fires exactly on lists that repeat a value. */
  lemma HasRepeatsIffNotDistinct(v: seq<int>)
    ensures HasRepeats(v) <==> exists i, j | 0 <= i < j < |v| :: v[i] == v[j]
  {
    ElemsSize(v);
  }

  // ---------------------------------------------------------------------
  // validate: field-level validation, then the serializer's own checks
  // ---------------------------------------------------------------------

  function ValidateText(s: Store, q: Id): (r: Outcome)
    ensures r.Pass? <==> q in s.questions && s.questions[q].qtype == Text
    ensures q !in s.questions ==> r == Fail(InvalidFields({QuestionField}))
    ensures q in s.questions && s.questions[q].qtype != Text ==> r == Fail(AnswerTypeMismatch(Text, s.questions[q].qtype))
  {
    if q !in s.questions then Fail(InvalidFields({QuestionField}))
    else CheckAnswerType(s, Text, q)
  }

  /** The choice is a positive small integer; both field errors are reported together. */
  function ValidateSingle(s: Store, q: Id, choice: int): (r: Outcome)
    ensures r.Pass? <==> q in s.questions && s.questions[q].qtype == Single && InSmallRange(choice)
    ensures !InSmallRange(choice) ==> r.Fail? && r.error.InvalidFields? && AnswerField in r.error.fields
    ensures q !in s.questions ==> r.Fail? && r.error.InvalidFields? && QuestionField in r.error.fields
    ensures q in s.questions && InSmallRange(choice) && s.questions[q].qtype != Single ==>
              r == Fail(AnswerTypeMismatch(Single, s.questions[q].qtype))
  {
    var bad := (if q !in s.questions then {QuestionField} else {})
             + (if !InSmallRange(choice) then {AnswerField} else {});
    if bad != {} then Fail(InvalidFields(bad))
    else CheckAnswerType(s, Single, q)
  }

  /** The type check runs before the duplicate-value check. */
  function ValidateMulti(s: Store, q: Id, values: seq<int>): (r: Outcome)
    ensures r.Pass? <==> q in s.questions && s.questions[q].qtype == Multi && Distinct(values)
    ensures q in s.questions && s.questions[q].qtype == Multi && !Distinct(values) ==>
              r == Fail(VariantsNotUnique)
    ensures q !in s.questions ==> r == Fail(InvalidFields({QuestionField}))
    ensures q in s.questions && s.questions[q].qtype != Multi ==> r == Fail(AnswerTypeMismatch(Multi, s.questions[q].qtype))
  {
    ElemsSize(values);
    if q !in s.questions then Fail(InvalidFields({QuestionField}))
    else if CheckAnswerType(s, Multi, q).Fail? then CheckAnswerType(s, Multi, q)
    else if HasRepeats(values) then Fail(VariantsNotUnique)
    else Pass
  }

  // ---------------------------------------------------------------------
  // create
  // ---------------------------------------------------------------------

  /** Everything but the answer tables and the counter is left alone. */
  ghost predicate SameSchemaRows(s: Store, r: Store) {
    r.polls == s.polls && r.questions == s.questions && r.users == s.users
  }

  function CreateText(s: Store, q: Id, u: Id, text: string): (r: Result<(Store, Id)>)
    requires IdsFresh(s)
    ensures r.Err? <==> exists k | HasAnswer(s, k) :: AnswerQuestion(s, k) == q && AnswerUser(s, k) == u
    ensures r.Err? ==> r.error == AlreadyAnswered
    ensures r.Ok? ==> var (s', id) := r.value;
              && SameSchemaRows(s, s') && s'.variants == s.variants
              && s'.singles == s.singles && s'.multis == s.multis
              && (forall k :: HasAnswer(s', k) <==> HasAnswer(s, k) || k == TextKey(id))
              && id !in s.texts && s'.texts == s.texts[id := AnswerText(q, u, text)]
              && s'.nextId > s.nextId && id >= s.nextId
  {
    match CheckNotAnswered(s, q, u)
    case Fail(e) => Err(e)
    case Pass =>
      var id := s.nextId;
      Ok((s.(texts := s.texts[id := AnswerText(q, u, text)], nextId := id + 1), id))
  }

  function CreateSingle(s: Store, q: Id, u: Id, choice: int): (r: Result<(Store, Id)>)
    requires IdsFresh(s)
    ensures r.Err? <==> exists k | HasAnswer(s, k) :: AnswerQuestion(s, k) == q && AnswerUser(s, k) == u
    ensures r.Err? ==> r.error == AlreadyAnswered
    ensures r.Ok? ==> var (s', id) := r.value;
              && SameSchemaRows(s, s') && s'.variants == s.variants
              && s'.texts == s.texts && s'.multis == s.multis
              && (forall k :: HasAnswer(s', k) <==> HasAnswer(s, k) || k == SingleKey(id))
              && id !in s.singles && s'.singles == s.singles[id := AnswerSingle(q, u, choice)]
              && s'.nextId > s.nextId && id >= s.nextId
  {
    match CheckNotAnswered(s, q, u)
    case Fail(e) => Err(e)
    case Pass =>
      var id := s.nextId;
      Ok((s.(singles := s.singles[id := AnswerSingle(q, u, choice)], nextId := id + 1), id))
  }

  predicate HasVariant(s: Store, v: int) {
    exists i | i in s.variants :: s.variants[i].variant == v
  }

  /**
   * Inserts one variant row per submitted value that is not yet in the
   * table; rows already there are kept as they are (conflicts ignored).
   */
  function {:induction false} UpsertVariants(s: Store, values: seq<int>): (r: Store)
    requires IdsFresh(s)
    decreases |values|
    ensures IdsFresh(r)
    ensures SameSchemaRows(s, r) && r.texts == s.texts && r.singles == s.singles && r.multis == s.multis
    ensures SubMap(s.variants, r.variants)
    ensures VariantValues(r) == VariantValues(s) + Elems(values)
    ensures r.nextId >= s.nextId
    ensures forall i | i in r.variants && i !in s.variants :: s.nextId <= i < r.nextId
    ensures VariantsUnique(s) ==> VariantsUnique(r)
  {
    if |values| == 0 then s
    else
      var v := values[0];
      var s1 := if HasVariant(s, v) then s
                else s.(variants := s.variants[s.nextId := AnswerVariant(v)], nextId := s.nextId + 1);
      InsertedVariantValues(s, s1, v);
      assert Elems(values) == {v} + Elems(values[1..]);
      UpsertVariants(s1, values[1..])
  }

  lemma InsertedVariantValues(s: Store, s1: Store, v: int)
    requires IdsFresh(s)
    requires s1 == if HasVariant(s, v) then s
                   else s.(variants := s.variants[s.nextId := AnswerVariant(v)], nextId := s.nextId + 1)
    ensures VariantValues(s1) == VariantValues(s) + {v}
    ensures IdsFresh(s1) && SubMap(s.variants, s1.variants) && s1.nextId >= s.nextId
    ensures forall i | i in s1.variants && i !in s.variants :: s.nextId <= i < s1.nextId
    ensures VariantsUnique(s) ==> VariantsUnique(s1)
  {
    if !HasVariant(s, v) {
      assert s.nextId !in s.variants;
      forall x ensures x in VariantValues(s1) <==> x in VariantValues(s) || x == v {
        if x in VariantValues(s1) {
          var i :| i in s1.variants && s1.variants[i].variant == x;
          if i != s.nextId {
            assert i in s.variants;
          }
        }
        if x in VariantValues(s) {
          var i :| i in s.variants && s.variants[i].variant == x;
          assert s1.variants[i] == s.variants[i];
        }
        if x == v {
          assert s1.variants[s.nextId].variant == v;
        }
      }
    }
  }

  /**
   * Upserts the option values, then creates the answer linked to exactly
   * the variant rows whose values were submitted. A value outside the
   * column's range is refused by the storage before anything is written.
   */
  function CreateMulti(s: Store, q: Id, u: Id, values: seq<int>): (r: Result<(Store, Id)>)
    requires IdsFresh(s)
    ensures (exists k | HasAnswer(s, k) :: AnswerQuestion(s, k) == q && AnswerUser(s, k) == u) ==>
              r == Err(AlreadyAnswered)
    ensures r.Err? ==> r.error == AlreadyAnswered || r.error == StorageRejected
    ensures r.Ok? <==> !(exists k | HasAnswer(s, k) :: AnswerQuestion(s, k) == q && AnswerUser(s, k) == u)
                       && (forall i | 0 <= i < |values| :: InSmallRange(values[i]))
    ensures r.Ok? ==> var (s', id) := r.value;
              && SameSchemaRows(s, s') && s'.texts == s.texts && s'.singles == s.singles
              && SubMap(s.variants, s'.variants)
              && VariantValues(s') == VariantValues(s) + Elems(values)
              && id !in s.multis && id >= s.nextId && s'.nextId > id
              && (forall k :: HasAnswer(s', k) <==> HasAnswer(s, k) || k == MultiKey(id))
              && id in s'.multis && s'.multis == s.multis[id := s'.multis[id]]
              && s'.multis[id].question == q && s'.multis[id].user == u
              && (forall j :: j in s'.multis[id].answer <==>
                                j in s'.variants && s'.variants[j].variant in Elems(values))
              && (forall j | j in s'.variants && j !in s.variants :: s.nextId <= j < id)
              && (VariantsUnique(s) ==> VariantsUnique(s'))
  {
    match CheckNotAnswered(s, q, u)
    case Fail(e) => Err(e)
    case Pass =>
      if exists i | 0 <= i < |values| :: !InSmallRange(values[i]) then Err(StorageRejected)
      else
        var s1 := UpsertVariants(s, values);
        var id := s1.nextId;
        var linked := set j | j in s1.variants && s1.variants[j].variant in values;
        Ok((s1.(multis := s1.multis[id := AnswerMulti(q, u, linked)], nextId := id + 1), id))
  }

  // ---------------------------------------------------------------------
  // to_representation
  // ---------------------------------------------------------------------

  function TextRepresentation(s: Store, id: Id): AnswerRepr
    requires id in s.texts
  {
    AnswerRepr(id, s.texts[id].question, TextData(s.texts[id].answer))
  }

  function SingleRepresentation(s: Store, id: Id): AnswerRepr
    requires id in s.singles
  {
    AnswerRepr(id, s.singles[id].question, SingleData(s.singles[id].answer))
  }

  /** The option values of the linked variant rows (their order is not modelled). */
  function MultiRepresentation(s: Store, id: Id): AnswerRepr
    requires id in s.multis
  {
    var m := s.multis[id];
    AnswerRepr(id, m.question, MultiData(set j | j in m.answer && j in s.variants :: s.variants[j].variant))
  }

  /** The representation of any answer row. */
  function Representation(s: Store, k: AnswerKey): AnswerRepr
    requires HasAnswer(s, k)
  {
    match k
    case TextKey(i) => TextRepresentation(s, i)
    case SingleKey(i) => SingleRepresentation(s, i)
    case MultiKey(i) => MultiRepresentation(s, i)
  }

  /** A multi answer created from `values` represents exactly the submitted values. */
  lemma MultiRoundTrip(s: Store, q: Id, u: Id, values: seq<int>)
    requires IdsFresh(s)
    requires CreateMulti(s, q, u, values).Ok?
    ensures var (s', id) := CreateMulti(s, q, u, values).value;
            MultiRepresentation(s', id) == AnswerRepr(id, q, MultiData(Elems(values)))
  {
    var r := CreateMulti(s, q, u, values).value;
    var s', id := r.0, r.1;
    var m := s'.multis[id];
    var got := set j | j in m.answer && j in s'.variants :: s'.variants[j].variant;
    forall x ensures x in got <==> x in Elems(values) {
      if x in Elems(values) {
        assert x in VariantValues(s');
        var j :| j in s'.variants && s'.variants[j].variant == x;
        assert j in m.answer;
      }
      if x in got {
        var j :| j in m.answer && j in s'.variants && s'.variants[j].variant == x;
      }
    }
    assert got == Elems(values);
    assert MultiRepresentation(s', id) == AnswerRepr(id, m.question, MultiData(got));
  }

  /** A created single answer represents as its id, its question and the submitted choice. */
  lemma SingleRoundTrip(s: Store, q: Id, u: Id, choice: int)
    requires IdsFresh(s)
    requires CreateSingle(s, q, u, choice).Ok?
    ensures var (s', id) := CreateSingle(s, q, u, choice).value;
            SingleRepresentation(s', id) == AnswerRepr(id, q, SingleData(choice))
  {
  }

  lemma TextRoundTrip(s: Store, q: Id, u: Id, text: string)
    requires IdsFresh(s)
    requires CreateText(s, q, u, text).Ok?
    ensures var (s', id) := CreateText(s, q, u, text).value;
            TextRepresentation(s', id) == AnswerRepr(id, q, TextData(text))
  {
  }

  // ---------------------------------------------------------------------
  // The per-question merge used by the "my polls" listing
  // ---------------------------------------------------------------------

  /**
   * The text answer is taken first, else the single answer; a multi answer,
   * when present, overwrites either. The `question` entry is then removed,
   * which fails when no list had an element.
   */
  function MergeAnswers(aText: seq<AnswerRepr>, aSingle: seq<AnswerRepr>, aMulti: seq<AnswerRepr>): (r: FlatAnswer)
    requires |aText| > 0 || |aSingle| > 0 || |aMulti| > 0
    ensures |aMulti| > 0 ==> r == FlatAnswer(aMulti[0].id, aMulti[0].data)
    ensures |aMulti| == 0 && |aText| > 0 ==> r == FlatAnswer(aText[0].id, aText[0].data)
    ensures |aMulti| == 0 && |aText| == 0 ==> r == FlatAnswer(aSingle[0].id, aSingle[0].data)
  {
    var answer := if |aText| > 0 then Some(aText[0]) else if |aSingle| > 0 then Some(aSingle[0]) else None;
    var answer := if |aMulti| > 0 then Some(aMulti[0]) else answer;
    FlatAnswer(answer.value.id, answer.value.data)
  }

  /** When the three lists hold one answer between them, the merge returns it whatever its kind. */
  lemma MergeOfOne(aText: seq<AnswerRepr>, aSingle: seq<AnswerRepr>, aMulti: seq<AnswerRepr>, a: AnswerRepr)
    requires aText + aSingle + aMulti == [a]
    ensures MergeAnswers(aText, aSingle, aMulti) == FlatAnswer(a.id, a.data)
  {
    if |aMulti| > 0 {
      assert (aText + aSingle + aMulti)[|aText| + |aSingle|] == aMulti[0];
    } else if |aText| > 0 {
      assert (aText + aSingle + aMulti)[0] == aText[0];
    } else {
      assert (aText + aSingle + aMulti)[0] == aSingle[0];
    }
  }
}

=== FILE: views.dfy ===
/**
 * The request handlers: answer submission (anonymous user resolution,
 * validation, creation, representation), question update with the
 * `reset_answers` flag, poll and question creation, the active-polls
 * listing and the caller's "my polls" listing.
 */
module Views {
  import opened Models
  import opened Serializers

  // ---------------------------------------------------------------------
  // Anonymous users
  // ---------------------------------------------------------------------

  /** The users recorded under session key `key`. */
  function SessionUsers(s: Store, key: string): set<Id> {
    set u | u in s.users && s.users[u].session == key
  }

  predicate IsCaller(s: Store, key: string, u: Id) {
    u in s.users && s.users[u].session == key
  }

  /**
   * Returns the user recorded under `key`, creating it when there is none;
   * the lookup half fails when the key is recorded more than once.
   */
  function GetOrCreateUser(s: Store, key: string): (r: Result<(Store, Id)>)
    requires IdsFresh(s)
    ensures r.Err? <==> |SessionUsers(s, key)| > 1
    ensures r.Err? ==> r.error == MultipleUsersForSession
    ensures r.Ok? ==> var (s', u) := r.value;
              && IsCaller(s', key, u) && IdsFresh(s')
              && s'.polls == s.polls && s'.questions == s.questions && s'.variants == s.variants
              && SameAnswers(s, s') && SubMap(s.users, s'.users)
              && (SessionUsers(s, key) != {} ==> s' == s && u in s.users)
              && (SessionUsers(s, key) == {} ==> u == s.nextId && u !in s.users
                                                  && s'.users == s.users[u := UserAnonymous(key)]
                                                  && s'.nextId == s.nextId + 1)
              && SessionUsers(s', key) == {u}
  {
    var found := SessionUsers(s, key);
    if |found| == 0 then
      var u := s.nextId;
      var s' := s.(users := s.users[u := UserAnonymous(key)], nextId := u + 1);
      assert SessionUsers(s', key) == {u} by {
        forall u2 | u2 in SessionUsers(s', key) ensures u2 == u {
          assert u2 !in found;
        }
      }
      Ok((s', u))
    else if |found| == 1 then
      Ok((s, TheElement(found)))
    else
      Err(MultipleUsersForSession)
  }

  lemma SessionUsersAtMostOne(s: Store, key: string)
    requires SessionsUnique(s)
    ensures |SessionUsers(s, key)| <= 1
  {
    var found := SessionUsers(s, key);
    if found != {} {
      var a :| a in found;
      assert found == {a};
    }
  }

  /** A second lookup with the same key returns the same user and adds no one. */
  lemma GetOrCreateReusesUser(s: Store, key: string, s1: Store, u: Id)
    requires IdsFresh(s)
    requires GetOrCreateUser(s, key) == Ok((s1, u))
    ensures GetOrCreateUser(s1, key) == Ok((s1, u))
  {
  }

  // ---------------------------------------------------------------------
  // Answer submission: validate, resolve the user, create, represent
  // ---------------------------------------------------------------------

  /** The caller's session already has an answer, of any kind, to `q`. */
  ghost predicate CallerAnswered(s: Store, key: string, q: Id) {
    exists k | HasAnswer(s, k) :: AnswerQuestion(s, k) == q && IsCaller(s, key, AnswerUser(s, k))
  }

  /**
   * The handler's steps leave polls and questions alone, keep every
   * variant row, and add a user only for a session key not yet recorded.
   */
  ghost predicate SubmissionFrame(s: Store, r: Store, key: string) {
    && IdsFresh(r) && r.nextId >= s.nextId
    && r.polls == s.polls && r.questions == s.questions
    && (|| r.users == s.users
        || (SessionUsers(s, key) == {} && s.nextId !in s.users && r.users == s.users[s.nextId := UserAnonymous(key)]))
    && SubMap(s.variants, r.variants)
  }

  /** The store gained exactly the answer `k`, given by a user of session `key` to `q`. */
  ghost predicate AddedOneAnswer(s: Store, r: Store, k: AnswerKey, key: string, q: Id) {
    && !HasAnswer(s, k) && HasAnswer(r, k)
    && (forall k2 :: HasAnswer(r, k2) <==> HasAnswer(s, k2) || k2 == k)
    && SubMap(s.texts, r.texts) && SubMap(s.singles, r.singles) && SubMap(s.multis, r.multis)
    && AnswerQuestion(r, k) == q && IsCaller(r, key, AnswerUser(r, k))
    && (forall k2 | HasAnswer(s, k2) :: AnswerQuestion(s, k2) != q || AnswerUser(s, k2) != AnswerUser(r, k))
  }

  function SubmitText(s: Store, key: string, q: Id, text: string): (r: Effect<AnswerRepr>)
    requires IdsFresh(s)
    ensures SubmissionFrame(s, r.store, key) && r.store.variants == s.variants
    ensures !(q in s.questions && s.questions[q].qtype == Text) ==> r.store == s && r.result.Err?
    ensures r.result.Err? ==> SameAnswers(s, r.store)
    ensures r.store.singles == s.singles && r.store.multis == s.multis
    ensures ValidateText(s, q).Fail? ==> r == Effect(s, Err(ValidateText(s, q).error))
    ensures r.result.Ok? ==>
              && r.result.value == AnswerRepr(r.result.value.id, q, TextData(text))
              && AddedOneAnswer(s, r.store, TextKey(r.result.value.id), key, q)
              && Representation(r.store, TextKey(r.result.value.id)) == r.result.value
              && r.store.texts[r.result.value.id].answer == text
  {
    match ValidateText(s, q)
    case Fail(e) => Effect(s, Err(e))
    case Pass =>
      match GetOrCreateUser(s, key)
      case Err(e) => Effect(s, Err(e))
      case Ok((s1, u)) =>
        match CreateText(s1, q, u, text)
        case Err(e) => Effect(s1, Err(e))
        case Ok((s2, id)) =>
          CreatedAnswerAdded(s, key, q, s1, u, s2, TextKey(id));
          Effect(s2, Ok(TextRepresentation(s2, id)))
  }

  function SubmitSingle(s: Store, key: string, q: Id, choice: int): (r: Effect<AnswerRepr>)
    requires IdsFresh(s)
    ensures SubmissionFrame(s, r.store, key) && r.store.variants == s.variants
    ensures !(q in s.questions && s.questions[q].qtype == Single && InSmallRange(choice)) ==>
              r.store == s && r.result.Err?
    ensures r.result.Err? ==> SameAnswers(s, r.store)
    ensures r.store.texts == s.texts && r.store.multis == s.multis
    ensures ValidateSingle(s, q, choice).Fail? ==> r == Effect(s, Err(ValidateSingle(s, q, choice).error))
    ensures r.result.Ok? ==>
              && r.result.value == AnswerRepr(r.result.value.id, q, SingleData(choice))
              && AddedOneAnswer(s, r.store, SingleKey(r.result.value.id), key, q)
              && Representation(r.store, SingleKey(r.result.value.id)) == r.result.value
              && r.store.singles[r.result.value.id].answer == choice
  {
    match ValidateSingle(s, q, choice)
    case Fail(e) => Effect(s, Err(e))
    case Pass =>
      match GetOrCreateUser(s, key)
      case Err(e) => Effect(s, Err(e))
      case Ok((s1, u)) =>
        match CreateSingle(s1, q, u, choice)
        case Err(e) => Effect(s1, Err(e))
        case Ok((s2, id)) =>
          CreatedAnswerAdded(s, key, q, s1, u, s2, SingleKey(id));
          Effect(s2, Ok(SingleRepresentation(s2, id)))
  }

  function SubmitMulti(s: Store, key: string, q: Id, values: seq<int>): (r: Effect<AnswerRepr>)
    requires IdsFresh(s)
    ensures SubmissionFrame(s, r.store, key)
    ensures !(q in s.questions && s.questions[q].qtype == Multi && Distinct(values)) ==>
              r.store == s && r.result.Err?
    ensures r.result.Err? ==> SameAnswers(s, r.store) && r.store.variants == s.variants
    ensures r.store.texts == s.texts && r.store.singles == s.singles
    ensures ValidateMulti(s, q, values).Fail? ==> r == Effect(s, Err(ValidateMulti(s, q, values).error))
    ensures r.result.Ok? ==>
              && r.result.value == AnswerRepr(r.result.value.id, q, MultiData(Elems(values)))
              && r.result.value.id in r.store.multis && r.store.multis[r.result.value.id].answer <= r.store.variants.Keys
              && AddedOneAnswer(s, r.store, MultiKey(r.result.value.id), key, q)
              && Representation(r.store, MultiKey(r.result.value.id)) == r.result.value
              && VariantValues(r.store) == VariantValues(s) + Elems(values)
              && (forall i | 0 <= i < |values| :: InSmallRange(values[i]))
    ensures VariantsUnique(s) ==> VariantsUnique(r.store)
  {
    match ValidateMulti(s, q, values)
    case Fail(e) => Effect(s, Err(e))
    case Pass =>
      match GetOrCreateUser(s, key)
      case Err(e) => Effect(s, Err(e))
      case Ok((s1, u)) =>
        match CreateMulti(s1, q, u, values)
        case Err(e) => Effect(s1, Err(e))
        case Ok((s2, id)) =>
          MultiCreated(s, key, q, values, s1, u, s2, id);
          Effect(s2, Ok(MultiRepresentation(s2, id)))
  }

  lemma MultiCreated(s: Store, key: string, q: Id, values: seq<int>, s1: Store, u: Id, s2: Store, id: Id)
    requires IdsFresh(s)
    requires GetOrCreateUser(s, key) == Ok((s1, u))
    requires CreateMulti(s1, q, u, values) == Ok((s2, id))
    ensures SubmissionFrame(s, s2, key)
    ensures AddedOneAnswer(s, s2, MultiKey(id), key, q)
    ensures VariantValues(s2) == VariantValues(s) + Elems(values)
    ensures MultiRepresentation(s2, id) == AnswerRepr(id, q, MultiData(Elems(values)))
    ensures VariantsUnique(s) ==> VariantsUnique(s2)
  {
    MultiRoundTrip(s1, q, u, values);
    CreatedMultiFresh(s1, q, u, values, s2, id);
    CreatedAnswerAdded(s, key, q, s1, u, s2, MultiKey(id));
  }

  /**
   * A row created for the user get-or-create resolved, on a pair the user
   * had not answered, is one new answer by the caller's session.
   */
  lemma CreatedAnswerAdded(s: Store, key: string, q: Id, s1: Store, u: Id, s2: Store, k: AnswerKey)
    requires SameAnswers(s, s1) && IsCaller(s1, key, u) && s2.users == s1.users
    requires !(exists k2 | HasAnswer(s1, k2) :: AnswerQuestion(s1, k2) == q && AnswerUser(s1, k2) == u)
    requires forall k2 :: HasAnswer(s2, k2) <==> HasAnswer(s1, k2) || k2 == k
    requires !HasAnswer(s1, k) && HasAnswer(s2, k) && AnswerQuestion(s2, k) == q && AnswerUser(s2, k) == u
    requires SubMap(s1.texts, s2.texts) && SubMap(s1.singles, s2.singles) && SubMap(s1.multis, s2.multis)
    ensures AddedOneAnswer(s, s2, k, key, q)
  {
  }

  lemma CreatedMultiFresh(s: Store, q: Id, u: Id, values: seq<int>, r: Store, id: Id)
    requires IdsFresh(s)
    requires CreateMulti(s, q, u, values) == Ok((r, id))
    ensures IdsFresh(r)
  {
  }

  // ---------------------------------------------------------------------
  // Polls and questions
  // ---------------------------------------------------------------------

  /** A new poll starts now and is inactive unless the request says otherwise. */
  function CreatePoll(s: Store, now: Time, name: string, description: string, endDate: Time,
                      isActive: Option<bool>): (r: Result<(Store, Id)>)
    requires IdsFresh(s)
    ensures r.Err? <==> now > endDate
    ensures r.Err? ==> r.error == EndDateInPast
    ensures r.Ok? ==> var (s', p) := r.value;
              && p !in s.polls && s'.polls == s.polls[p := Poll(name, description, now, endDate, isActive.GetOr(false))]
              && IdsFresh(s') && s'.questions == s.questions && s'.users == s.users && SameAnswers(s, s')
              && s'.variants == s.variants
  {
    match ValidateEndDate(now, endDate)
    case Err(e) => Err(e)
    case Ok(end) =>
      var p := s.nextId;
      Ok((s.(polls := s.polls[p := Poll(name, description, now, end, isActive.GetOr(false))],
             nextId := p + 1), p))
  }

  /** The fields a poll update may change; an absent field keeps its value. */
  datatype PollEdit = PollEdit(name: Option<string>, description: Option<string>,
                               endDate: Option<Time>, isActive: Option<bool>)

  /** The start date is fixed at creation: no update changes it. */
  function UpdatePoll(s: Store, now: Time, p: Id, edit: PollEdit): (r: Result<Store>)
    ensures p !in s.polls ==> r == Err(NotFound)
    ensures p in s.polls && edit.endDate.Some? && now > edit.endDate.value ==> r == Err(EndDateInPast)
    ensures r.Ok? <==> p in s.polls && (edit.endDate.Some? ==> now <= edit.endDate.value)
    ensures r.Ok? ==> var prev := s.polls[p];
              r.value.polls == s.polls[p := Poll(edit.name.GetOr(prev.name), edit.description.GetOr(prev.description),
                                                 prev.startDate, edit.endDate.GetOr(prev.endDate),
                                                 edit.isActive.GetOr(prev.isActive))]
    ensures r.Ok? ==> r.value.questions == s.questions && r.value.users == s.users && SameAnswers(s, r.value)
    ensures r.Ok? ==> r.value == s.(polls := r.value.polls)
  {
    if p !in s.polls then Err(NotFound)
    else if edit.endDate.Some? && ValidateEndDate(now, edit.endDate.value).Err? then Err(EndDateInPast)
    else
      var prev := s.polls[p];
      var updated := Poll(edit.name.GetOr(prev.name), edit.description.GetOr(prev.description),
                          prev.startDate, edit.endDate.GetOr(prev.endDate), edit.isActive.GetOr(prev.isActive));
      Ok(s.(polls := s.polls[p := updated]))
  }

  function CreateQuestion(s: Store, poll: Id, text: string, qtype: QuestionType): (r: Result<(Store, Id)>)
    requires IdsFresh(s)
    ensures r.Err? <==> poll !in s.polls
    ensures r.Err? ==> r.error == InvalidFields({PollField})
    ensures r.Ok? ==> var (s', q) := r.value;
              && q !in s.questions && s'.questions == s.questions[q := Question(poll, text, qtype)]
              && s'.polls == s.polls && s'.users == s.users && SameAnswers(s, s') && IdsFresh(s')
              && s'.variants == s.variants
  {
    if poll !in s.polls then Err(InvalidFields({PollField}))
    else
      var q := s.nextId;
      Ok((s.(questions := s.questions[q := Question(poll, text, qtype)], nextId := q + 1), q))
  }

  /** The fields a question update may change; an absent field keeps its value. */
  datatype QuestionEdit = QuestionEdit(poll: Option<Id>, text: Option<string>, qtype: Option<QuestionType>)

  /**
   * The field update alone, as the framework's update performs it: the
   * question must exist, and a new poll must exist; the current poll is not
   * looked at again.
   */
  function ApplyQuestionEdit(s: Store, q: Id, edit: QuestionEdit): (r: Result<Store>)
    ensures q !in s.questions ==> r == Err(NotFound)
    ensures q in s.questions && edit.poll.Some? && edit.poll.value !in s.polls ==> r == Err(InvalidFields({PollField}))
    ensures r.Ok? <==> q in s.questions && (edit.poll.Some? ==> edit.poll.value in s.polls)
    ensures r.Ok? ==> var prev := s.questions[q];
              r.value == s.(questions := s.questions[q := Question(edit.poll.GetOr(prev.poll), edit.text.GetOr(prev.text),
                                                                   edit.qtype.GetOr(prev.qtype))])
  {
    if q !in s.questions then Err(NotFound)
    else if edit.poll.Some? && edit.poll.value !in s.polls then Err(InvalidFields({PollField}))
    else
      var prev := s.questions[q];
      Ok(s.(questions := s.questions[q := Question(edit.poll.GetOr(prev.poll), edit.text.GetOr(prev.text),
                                                   edit.qtype.GetOr(prev.qtype))]))
  }

  /**
   * With `resetAnswers` set, every answer to the question is deleted first;
   * the field update runs afterwards and its failure does not bring the
   * answers back. An unknown question in the reset branch is an unhandled
   * lookup failure; otherwise it is the handler's "not found".
   */
  function UpdateQuestion(s: Store, q: Id, resetAnswers: bool, edit: QuestionEdit): (r: Effect<Store>)
    ensures resetAnswers && q !in s.questions ==> r == Effect(s, Err(QuestionDoesNotExist))
    ensures !resetAnswers && q !in s.questions ==> r == Effect(s, Err(NotFound))
    ensures !resetAnswers ==> SameAnswers(s, r.store)
    ensures resetAnswers && q in s.questions ==>
              forall k :: HasAnswer(r.store, k) <==> HasAnswer(s, k) && AnswerQuestion(s, k) != q
    ensures SubMap(r.store.texts, s.texts) && SubMap(r.store.singles, s.singles) && SubMap(r.store.multis, s.multis)
    ensures r.store.polls == s.polls && r.store.users == s.users && r.store.variants == s.variants
    ensures r.store.nextId == s.nextId
    ensures r.result.Err? ==> r.store.questions == s.questions
    ensures r.result.Ok? ==> r.result.value == r.store
    ensures r.result.Ok? ==> q in s.questions && r.store.questions.Keys == s.questions.Keys
    ensures q in s.questions && edit.poll.Some? && edit.poll.value !in s.polls ==> r.result == Err(InvalidFields({PollField}))
    ensures r.result.Ok? <==> q in s.questions && (edit.poll.Some? ==> edit.poll.value in s.polls)
    ensures r.result.Ok? ==> var prev := s.questions[q];
              r.store.questions == s.questions[q := Question(edit.poll.GetOr(prev.poll), edit.text.GetOr(prev.text),
                                                             edit.qtype.GetOr(prev.qtype))]
  {
    if resetAnswers && q !in s.questions then Effect(s, Err(QuestionDoesNotExist))
    else
      var s1 := if resetAnswers then DropAnswersOfQuestions(s, {q}) else s;
      match ApplyQuestionEdit(s1, q, edit)
      case Err(e) => Effect(s1, Err(e))
      case Ok(s2) => Effect(s2, Ok(s2))
  }

  /** The update would give the question a type other than the one it has. */
  predicate ChangesType(s: Store, q: Id, edit: QuestionEdit) {
    q in s.questions && edit.qtype.Some? && edit.qtype.value != s.questions[q].qtype
  }

  /**
   * The question update with every answer reset when the type changes, so
   * that no answer is left whose kind the question no longer has.
   */
  function UpdateQuestionKeepingKinds(s: Store, q: Id, resetAnswers: bool, edit: QuestionEdit): (r: Effect<Store>)
    ensures KindsMatch(s) ==> KindsMatch(r.store)
    ensures !ChangesType(s, q, edit) ==> r == UpdateQuestion(s, q, resetAnswers, edit)
    ensures ChangesType(s, q, edit) ==> r == UpdateQuestion(s, q, true, edit)
    ensures ChangesType(s, q, edit) ==> forall k | HasAnswer(r.store, k) :: AnswerQuestion(r.store, k) != q
  {
    var r := UpdateQuestion(s, q, resetAnswers || ChangesType(s, q, edit), edit);
    assert forall k | HasAnswer(r.store, k) ::
             HasAnswer(s, k) && AnswerQuestion(r.store, k) == AnswerQuestion(s, k);
    r
  }

  // ---------------------------------------------------------------------
  // The `reset_answers` flag as the request carries it
  // ---------------------------------------------------------------------

  /** A request value as the parser delivers it: from JSON, or as text from a form. */
  datatype RawValue = RawBool(b: bool) | RawInt(n: int) | RawText(t: string) | RawNull

  /** Python truthiness, which a bare `if` applies to the raw request value. */
  function Truthy(v: RawValue): (r: bool)
    ensures !r <==> v in {RawBool(false), RawInt(0), RawText(""), RawNull}
  {
    match v
    case RawBool(b) => b
    case RawInt(n) => n != 0
    case RawText(t) => |t| > 0
    case RawNull => false
  }

  /** The spellings the framework's boolean field reads as true and as false. */
  const TrueSpellings: set<string> := {"t", "T", "y", "Y", "yes", "Yes", "YES", "true", "True", "TRUE", "on", "On", "ON", "1"}
  const FalseSpellings: set<string> := {"f", "F", "n", "N", "no", "No", "NO", "false", "False", "FALSE", "off", "Off", "OFF", "0"}

  /** The boolean field's reading of a value; `None` is a validation error. */
  function ParseBoolean(v: RawValue): (r: Option<bool>)
    ensures v.RawBool? ==> r == Some(v.b)
    ensures v.RawInt? ==> (r.Some? <==> v.n == 0 || v.n == 1)
    ensures v.RawText? ==> (r == Some(true) <==> v.t in TrueSpellings) && (r == Some(false) <==> v.t in FalseSpellings)
    ensures v.RawNull? ==> r.None?
    ensures r.Some? && !v.RawText? ==> r.value == Truthy(v)
  {
    match v
    case RawBool(b) => Some(b)
    case RawInt(n) => if n == 1 then Some(true) else if n == 0 then Some(false) else None
    case RawText(t) => if t in TrueSpellings then Some(true) else if t in FalseSpellings then Some(false) else None
    case RawNull => None
  }

  /** The poll field's error, if the edit names a poll that does not exist. */
  function PollErrors(s: Store, edit: QuestionEdit): (r: set<Field>)
    ensures r <= {PollField}
    ensures PollField in r <==> edit.poll.Some? && edit.poll.value !in s.polls
  {
    if edit.poll.Some? && edit.poll.value !in s.polls then {PollField} else {}
  }

  /**
   * The update as the handler performs it. The raw value's truthiness
   * decides the reset, which deletes the answers at once; the framework's
   * update then looks the question up and validates every field together,
   * so a flag the boolean field cannot read is refused only after the
   * deletion.
   */
  function UpdateQuestionAsWritten(s: Store, q: Id, raw: RawValue, edit: QuestionEdit): (r: Effect<Store>)
    ensures Truthy(raw) && q in s.questions ==>
              forall k :: HasAnswer(r.store, k) <==> HasAnswer(s, k) && AnswerQuestion(s, k) != q
    ensures !Truthy(raw) ==> SameAnswers(s, r.store)
    ensures ParseBoolean(raw).Some? ==> r == UpdateQuestion(s, q, Truthy(raw), edit)
    ensures ParseBoolean(raw).None? ==> r.result.Err? && r.store.questions == s.questions
    ensures q !in s.questions ==> r.store == s && r.result.Err?
    ensures ParseBoolean(raw).None? ==>
              && r.store.polls == s.polls && r.store.users == s.users && r.store.variants == s.variants
              && r.store.nextId == s.nextId
              && SubMap(r.store.texts, s.texts) && SubMap(r.store.singles, s.singles) && SubMap(r.store.multis, s.multis)
    ensures ParseBoolean(raw).None? && q in s.questions ==>
              r.result == Err(InvalidFields({ResetAnswersField} + PollErrors(s, edit)))
  {
    var reset := Truthy(raw);
    if reset && q !in s.questions then Effect(s, Err(QuestionDoesNotExist))
    else
      var s1 := if reset then DropAnswersOfQuestions(s, {q}) else s;
      if q !in s1.questions then Effect(s1, Err(NotFound))
      else if ParseBoolean(raw).None? then Effect(s1, Err(InvalidFields({ResetAnswersField} + PollErrors(s1, edit))))
      else
        match ApplyQuestionEdit(s1, q, edit)
        case Err(e) => Effect(s1, Err(e))
        case Ok(s2) => Effect(s2, Ok(s2))
  }

  /**
   * The update with the flag read as the serializer declares it: a value the
   * boolean field rejects changes nothing, and only a value it reads as true
   * deletes answers.
   */
  function UpdateQuestionChecked(s: Store, q: Id, raw: RawValue, edit: QuestionEdit): (r: Effect<Store>)
    ensures ParseBoolean(raw).None? ==> r == Effect(s, Err(InvalidFields({ResetAnswersField})))
    ensures ParseBoolean(raw) == Some(false) ==> SameAnswers(s, r.store)
    ensures ParseBoolean(raw) == Some(true) && q in s.questions ==>
              forall k :: HasAnswer(r.store, k) <==> HasAnswer(s, k) && AnswerQuestion(s, k) != q
    ensures raw.RawBool? ==> r == UpdateQuestion(s, q, raw.b, edit)
    ensures ParseBoolean(raw).Some? ==> r == UpdateQuestion(s, q, ParseBoolean(raw).value, edit)
  {
    match ParseBoolean(raw)
    case None => Effect(s, Err(InvalidFields({ResetAnswersField})))
    case Some(reset) => UpdateQuestion(s, q, reset, edit)
  }

  // ---------------------------------------------------------------------
  // Listings
  // ---------------------------------------------------------------------

  function ActivePolls(s: Store): (r: map<Id, Poll>)
    ensures forall p :: p in r <==> p in s.polls && s.polls[p].isActive
    ensures SubMap(r, s.polls)
  {
    map p | p in s.polls && s.polls[p].isActive :: s.polls[p]
  }

  /** One question of the "my polls" listing, with its merged answer. */
  datatype QuestionView = QuestionView(id: Id, text: string, qtype: QuestionType, answer: FlatAnswer)

  /** One poll of the "my polls" listing. */
  datatype PollView = PollView(id: Id, name: string, description: string, startDate: Time, endDate: Time,
                               questions: set<QuestionView>)

  function KeyOf(kind: QuestionType, i: Id): AnswerKey {
    match kind
    case Text => TextKey(i)
    case Single => SingleKey(i)
    case Multi => MultiKey(i)
  }

  /** The representation of row `i` of the `kind` table, when it answers `q` for session `key`. */
  function CallerRow(s: Store, key: string, q: Id, kind: QuestionType, i: Id): Option<AnswerRepr> {
    var k := KeyOf(kind, i);
    if HasAnswer(s, k) && AnswerQuestion(s, k) == q && IsCaller(s, key, AnswerUser(s, k))
    then Some(Representation(s, k))
    else None
  }

  /** The caller's answers to `q` in the `kind` table, in primary-key order from `lo`. */
  function {:induction false} CallerAnswers(s: Store, key: string, q: Id, kind: QuestionType, lo: nat): (r: seq<AnswerRepr>)
    decreases s.nextId - lo
    ensures forall j | 0 <= j < |r| :: exists i | lo <= i < s.nextId :: CallerRow(s, key, q, kind, i) == Some(r[j])
    ensures forall i | lo <= i < s.nextId && CallerRow(s, key, q, kind, i).Some? ::
              CallerRow(s, key, q, kind, i).value in r
  {
    if lo >= s.nextId then []
    else
      var rest := CallerAnswers(s, key, q, kind, lo + 1);
      match CallerRow(s, key, q, kind, lo)
      case Some(a) => [a] + rest
      case None => rest
  }

  /** The session has an answer, of any kind, to `q` (the question filter of the listing). */
  predicate AnsweredBySession(s: Store, key: string, q: Id) {
    || (exists i | i in s.texts :: s.texts[i].question == q && IsCaller(s, key, s.texts[i].user))
    || (exists i | i in s.singles :: s.singles[i].question == q && IsCaller(s, key, s.singles[i].user))
    || (exists i | i in s.multis :: s.multis[i].question == q && IsCaller(s, key, s.multis[i].user))
  }

  lemma AnsweredBySessionByKey(s: Store, key: string, q: Id)
    ensures AnsweredBySession(s, key, q) <==> CallerAnswered(s, key, q)
  {
    if AnsweredBySession(s, key, q) {
      if i :| i in s.texts && s.texts[i].question == q && IsCaller(s, key, s.texts[i].user) {
        assert HasAnswer(s, TextKey(i));
      } else if i :| i in s.singles && s.singles[i].question == q && IsCaller(s, key, s.singles[i].user) {
        assert HasAnswer(s, SingleKey(i));
      } else {
        var i :| i in s.multis && s.multis[i].question == q && IsCaller(s, key, s.multis[i].user);
        assert HasAnswer(s, MultiKey(i));
      }
    }
  }

  /** Every answer the session gave to `q` sits in the list of its kind. */
  lemma CallerAnswerListed(s: Store, key: string, q: Id, k: AnswerKey)
    requires IdsFresh(s)
    requires HasAnswer(s, k) && AnswerQuestion(s, k) == q && IsCaller(s, key, AnswerUser(s, k))
    ensures Representation(s, k) in CallerAnswers(s, key, q, k.Kind(), 0)
  {
    assert KeyOf(k.Kind(), k.id) == k;
    assert k.id < s.nextId;
    assert CallerRow(s, key, q, k.Kind(), k.id) == Some(Representation(s, k));
  }

  function QuestionViewOf(s: Store, key: string, q: Id): (r: QuestionView)
    requires IdsFresh(s)
    requires q in s.questions && AnsweredBySession(s, key, q)
    ensures r.id == q && r.text == s.questions[q].text && r.qtype == s.questions[q].qtype
    ensures exists k | HasAnswer(s, k) :: AnswerQuestion(s, k) == q && IsCaller(s, key, AnswerUser(s, k))
                                         && r.answer == FlatAnswer(k.id, Representation(s, k).data)
  {
    AnsweredBySessionByKey(s, key, q);
    var k0 :| HasAnswer(s, k0) && AnswerQuestion(s, k0) == q && IsCaller(s, key, AnswerUser(s, k0));
    CallerAnswerListed(s, key, q, k0);
    var aText := CallerAnswers(s, key, q, Text, 0);
    var aSingle := CallerAnswers(s, key, q, Single, 0);
    var aMulti := CallerAnswers(s, key, q, Multi, 0);
    var answer := MergeAnswers(aText, aSingle, aMulti);
    PickedIsCallerAnswer(s, key, q, aText, aSingle, aMulti);
    QuestionView(q, s.questions[q].text, s.questions[q].qtype, answer)
  }

  lemma PickedIsCallerAnswer(s: Store, key: string, q: Id,
                             aText: seq<AnswerRepr>, aSingle: seq<AnswerRepr>, aMulti: seq<AnswerRepr>)
    requires aText == CallerAnswers(s, key, q, Text, 0)
    requires aSingle == CallerAnswers(s, key, q, Single, 0)
    requires aMulti == CallerAnswers(s, key, q, Multi, 0)
    requires |aText| > 0 || |aSingle| > 0 || |aMulti| > 0
    ensures exists k | HasAnswer(s, k) :: AnswerQuestion(s, k) == q && IsCaller(s, key, AnswerUser(s, k))
                                        && MergeAnswers(aText, aSingle, aMulti) == FlatAnswer(k.id, Representation(s, k).data)
  {
    var kind := if |aMulti| > 0 then Multi else if |aText| > 0 then Text else Single;
    var list := CallerAnswers(s, key, q, kind, 0);
    assert |list| > 0 && MergeAnswers(aText, aSingle, aMulti) == FlatAnswer(list[0].id, list[0].data);
    var i :| 0 <= i < s.nextId && CallerRow(s, key, q, kind, i) == Some(list[0]);
    var k := KeyOf(kind, i);
    assert HasAnswer(s, k) && Representation(s, k) == list[0];
    assert Representation(s, k).id == k.id;
  }

  /** The questions of poll `p` that the session answered, each with its merged answer. */
  function AnsweredQuestionsOf(s: Store, key: string, p: Id): set<QuestionView>
    requires IdsFresh(s)
  {
    set q | q in s.questions && s.questions[q].poll == p && AnsweredBySession(s, key, q) :: QuestionViewOf(s, key, q)
  }

  /**
   * The polls the session answered some question of, each once, each
   * carrying only the answered questions and only the session's answers.
   */
  function MyPolls(s: Store, key: string): (r: set<PollView>)
    requires IdsFresh(s)
    ensures forall v | v in r :: v.id in s.polls
    ensures forall v1, v2 | v1 in r && v2 in r && v1.id == v2.id :: v1 == v2
    ensures forall p | p in s.polls && (exists q | q in s.questions :: s.questions[q].poll == p && AnsweredBySession(s, key, q)) ::
              exists v | v in r :: v.id == p
    ensures forall v | v in r :: exists q | q in s.questions :: s.questions[q].poll == v.id && AnsweredBySession(s, key, q)
    ensures forall v | v in r ::
              && v.name == s.polls[v.id].name && v.description == s.polls[v.id].description
              && v.startDate == s.polls[v.id].startDate && v.endDate == s.polls[v.id].endDate
    ensures forall v, qv | v in r && qv in v.questions ::
              && qv.id in s.questions && s.questions[qv.id].poll == v.id
              && CallerAnswered(s, key, qv.id)
              && (exists k | HasAnswer(s, k) :: AnswerQuestion(s, k) == qv.id && IsCaller(s, key, AnswerUser(s, k))
                                               && qv.answer == FlatAnswer(k.id, Representation(s, k).data))
    ensures forall v, q | v in r && q in s.questions && s.questions[q].poll == v.id && CallerAnswered(s, key, q) ::
              exists qv | qv in v.questions :: qv.id == q
    ensures forall v, qv | v in r && qv in v.questions ::
              && qv.text == s.questions[qv.id].text && qv.qtype == s.questions[qv.id].qtype
              && AnsweredBySession(s, key, qv.id) && qv == QuestionViewOf(s, key, qv.id)
    ensures forall v, qv1, qv2 | v in r && qv1 in v.questions && qv2 in v.questions && qv1.id == qv2.id :: qv1 == qv2
  {
    var shown := set p | p in s.polls && (exists q | q in s.questions :: s.questions[q].poll == p && AnsweredBySession(s, key, q));
    var r := set p | p in shown ::
      PollView(p, s.polls[p].name, s.polls[p].description, s.polls[p].startDate, s.polls[p].endDate,
               AnsweredQuestionsOf(s, key, p));
    MyPollsPolls(s, key, shown, r);
    MyPollsQuestions(s, key, r);
    r
  }

  lemma MyPollsPolls(s: Store, key: string, shown: set<Id>, r: set<PollView>)
    requires IdsFresh(s)
    requires shown == set p | p in s.polls && (exists q | q in s.questions :: s.questions[q].poll == p && AnsweredBySession(s, key, q))
    requires r == set p | p in shown ::
                    PollView(p, s.polls[p].name, s.polls[p].description, s.polls[p].startDate, s.polls[p].endDate,
                             AnsweredQuestionsOf(s, key, p))
    ensures forall v | v in r :: v.id in s.polls && v.questions == AnsweredQuestionsOf(s, key, v.id)
    ensures forall v1, v2 | v1 in r && v2 in r && v1.id == v2.id :: v1 == v2
    ensures forall v | v in r :: exists q | q in s.questions :: s.questions[q].poll == v.id && AnsweredBySession(s, key, q)
    ensures forall v | v in r ::
              && v.name == s.polls[v.id].name && v.description == s.polls[v.id].description
              && v.startDate == s.polls[v.id].startDate && v.endDate == s.polls[v.id].endDate
    ensures forall p | p in s.polls && (exists q | q in s.questions :: s.questions[q].poll == p && AnsweredBySession(s, key, q)) ::
              exists v | v in r :: v.id == p
  {
    forall p | p in s.polls && (exists q | q in s.questions :: s.questions[q].poll == p && AnsweredBySession(s, key, q))
      ensures exists v | v in r :: v.id == p
    {
      assert p in shown;
      assert PollView(p, s.polls[p].name, s.polls[p].description, s.polls[p].startDate,
                      s.polls[p].endDate, AnsweredQuestionsOf(s, key, p)) in r;
    }
  }

  lemma MyPollsQuestions(s: Store, key: string, r: set<PollView>)
    requires IdsFresh(s)
    requires forall v | v in r :: v.questions == AnsweredQuestionsOf(s, key, v.id)
    ensures forall v, qv | v in r && qv in v.questions ::
              && qv.id in s.questions && s.questions[qv.id].poll == v.id
              && CallerAnswered(s, key, qv.id)
              && (exists k | HasAnswer(s, k) :: AnswerQuestion(s, k) == qv.id && IsCaller(s, key, AnswerUser(s, k))
                                               && qv.answer == FlatAnswer(k.id, Representation(s, k).data))
    ensures forall v, q | v in r && q in s.questions && s.questions[q].poll == v.id && CallerAnswered(s, key, q) ::
              exists qv | qv in v.questions :: qv.id == q
    ensures forall v, qv | v in r && qv in v.questions ::
              && qv.text == s.questions[qv.id].text && qv.qtype == s.questions[qv.id].qtype
              && AnsweredBySession(s, key, qv.id) && qv == QuestionViewOf(s, key, qv.id)
    ensures forall v, qv1, qv2 | v in r && qv1 in v.questions && qv2 in v.questions && qv1.id == qv2.id :: qv1 == qv2
  {
    forall v, qv | v in r && qv in v.questions
      ensures qv.id in s.questions && s.questions[qv.id].poll == v.id && CallerAnswered(s, key, qv.id)
      ensures AnsweredBySession(s, key, qv.id) && qv == QuestionViewOf(s, key, qv.id)
    {
      var q :| q in s.questions && s.questions[q].poll == v.id && AnsweredBySession(s, key, q) && qv == QuestionViewOf(s, key, q);
      AnsweredBySessionByKey(s, key, q);
    }
    forall v, q | v in r && q in s.questions && s.questions[q].poll == v.id && CallerAnswered(s, key, q)
      ensures exists qv | qv in v.questions :: qv.id == q
    {
      AnsweredBySessionByKey(s, key, q);
      assert QuestionViewOf(s, key, q) in v.questions;
    }
  }
}
